=== FILE: README.md ===
# flask_movie: the request handlers as a state machine

This project models the decision logic of flask_movie, a Flask site for films
with an administrator back office (`/admin`) and a member front end (`/`).
The model covers the sign-in gates, sign-in and sign-out on both sides, the
administrator tag registry, the member profile and password pages, and the
administrator form validators. Three parts are modelled:

- **The database** (`Models`): the tables the handlers read or write
  (user, user log, tag, admin), and the role and auth tables, which no
  modelled handler touches but whose UNIQUE and FOREIGN KEY constraints
  the database keeps. Primary keys are map keys. The
  UNIQUE and FOREIGN KEY constraints are combined in one predicate, `Valid`.
- **The client's Flask session** (`Web`): one map shared by both
  blueprints. The administrator side owns the key `"admin"`; the member side
  owns `"user"` and `"user_id"`.
- **The handlers** (`AdminViews`, `HomeViews`): each handler is a pure
  function from the state before a request to the state after it, plus the
  response. A response is one of:
  - a redirect;
  - a flashed rejection followed by a redirect;
  - a 404;
  - a 405, when the route's `methods=` list does not accept the verb;
  - a rendered page;
  - an escaped exception.

A commit whose tables break a constraint raises. Nothing the request did is
then kept: the application runs with debug on, so the session is not saved
either.

Password hashing is not modelled. Checking a password is a parameter
`verify: (Hash, string) -> bool`, and a new hash is an input. The `login_req`
decorators are a routing table (`Gated`) in front of the undecorated views
(`View`). Each blueprint's `Dispatch` first applies Flask's method check
(`MethodsOf`), then the gate, then the view, and `Site.Serve` routes a
request to one of the blueprints.

Modules:

- `Options`, `Text` (text.dfy): `Option`, Python's `str.strip()`, and the
  WTForms `DataRequired` test.
- `Models` (models.dfy): records, constraints, lookups by unique column, and
  the lemmas showing that edits keep the tables valid.
- `Web` (web.dfy): session, request, response and the commit.
- `Forms` (forms.dfy): the administrator form validators.
- `AdminViews` (admin_views.dfy): the admin gate, login and logout, the tag
  registry and the tag listing order.
- `HomeViews` (home_views.dfy): the member gate, login and logout, the
  profile page and the password change.
- `Site` (site.dfy): both blueprints over one database and one session.

Where the code does something its authors evidently did not mean, the model
has two versions: the code as written, with a lemma that shows the
discrepancy, and a corrected version. These are listed under "Findings".
The dispatchers take a `Revision`: `AsWritten` runs `tag_edit`, `user()`
and `pwd()` as the code has them, and `Corrected` runs the corrected
versions. Every property of the dispatchers is proved for both.

## Model

| member | source | states |
|---|---|---|
| Text.Strip | app/home/views.py:51 | `strip()` leaves no whitespace at either end, never grows the string, and is empty exactly when the input is all whitespace |
| Text.StripOfPadded | app/admin/views.py:102 | stripping a trimmed core padded by whitespace on either side gives back exactly that core |
| Text.StripIdempotent | app/home/views.py:51 | stripping twice is stripping once |
| Text.PresentIffNonSpace | app/admin/forms.py:51-58 | a required text field (the tag name) is accepted exactly when it holds a non-whitespace character |
| Models.FindUserByName | app/home/views.py:51 | `first()` finds a member exactly when some member has that name, and the member it finds has that name |
| Models.FindAdminByName | app/admin/views.py:34 | `first()` finds an administrator exactly when some administrator has that name, and the one it finds has that name |
| Models.UserNameIsKey | app/models.py:17 | member names are unique, so looking a member up by its own name finds that member again |
| Models.AdminNameIsKey | app/models.py:168 | administrator names are unique, so the lookup by session name finds the signed-in administrator again |
| Models.RoleOf | app/models.py:171 | an administrator has a role exactly when its single `role_id` is set, and in a valid database that `role_id` names a stored role, which is the one returned |
| Models.InsertTagKeepsValid | app/models.py:57 | adding a tag under a fresh id with a name no tag holds keeps every constraint, and exactly one tag then has that name |
| Models.RemoveTagKeepsValid | app/models.py:56-59 | deleting a tag keeps every constraint |
| Models.RenameTagKeepsValid | app/models.py:57 | renaming a tag to a name no other tag holds keeps every constraint |
| Models.UpdateUserKeepsValid | app/models.py:16-24 | replacing a member whose new name, email, phone and avatar belong to no other member keeps every constraint |
| Models.AppendLogKeepsValid | app/models.py:42 | a login record for an existing member keeps the user-log foreign key |
| Web.Pop | app/admin/views.py:45 | `session.pop(key, None)` removes exactly that key and keeps every other value |
| Web.PopIdempotent | app/home/views.py:72-73 | popping twice is popping once, and popping an absent key changes nothing |
| Forms.AdminLoginErrors | app/admin/forms.py:12-48 | the account field fails exactly when it is blank or no administrator has exactly that name; the password fails exactly when blank; the form passes exactly when neither fails |
| Forms.ValidateOldPwd | app/admin/forms.py:258-266 | the old password passes exactly when the administrator named in the session verifies it, and is wrong exactly when that administrator does not verify it; a name no administrator holds raises, and a missing session key raises |
| Forms.AdminFormErrors | app/admin/forms.py:326-356 | only the name, password and repeated-password fields can fail; name and password fail, with the required message, exactly when blank; the repeated password fails exactly when it is blank or differs from the password; the form passes exactly when all three are filled in and the two passwords are equal |
| Forms.AcceptedAdminFormRepeatsPassword | app/admin/forms.py:351-356 | an accepted administrator form carries two equal, non-blank passwords |
| Forms.StarErrors | app/admin/forms.py:132-138 | the star rating is accepted exactly when it is one of 1 to 5; a missing, uncoercible or zero value fails with the `DataRequired` message alone; any other value outside the choices fails with "Not a valid choice" |
| AdminViews.Login | app/admin/views.py:27-40 | a GET or a failed form renders with nothing changed; a wrong password is rejected with the session unchanged, exactly when the named administrator does not verify it; otherwise `session["admin"]` becomes the account and the client is redirected to a non-empty `next`, or to the index when `next` is absent or empty; the database never changes |
| AdminViews.LoginConsultsOnlyVerify | app/models.py:179-181 | the stored hash is used only through `check_pwd`, and only for the named administrator: verifiers that agree there give identical responses |
| AdminViews.Logout | app/admin/views.py:43-46 | sign-out removes `"admin"` and keeps every other session key and the whole database |
| AdminViews.LogoutIdempotent | app/admin/views.py:44-46 | signing out twice is signing out once |
| AdminViews.TagAdd | app/admin/views.py:55-72 | a name some tag holds is rejected with nothing changed; otherwise exactly one tag is added under a fresh id, dated by the request clock, and the tag count grows by one; a blank name or a GET renders; the commit never fails |
| AdminViews.TagAddNameHeldOnce | app/admin/views.py:61-69 | after a successful add exactly one tag carries the new name |
| AdminViews.TagDel | app/admin/views.py:84-91 | a missing id is a 404 with nothing changed; an existing id removes that tag alone and returns to page 1 of the listing |
| AdminViews.TagEditWith | app/admin/views.py:94-110 | a missing id is a 404; a GET or blank name renders; a changed name that some tag holds is rejected with nothing changed; otherwise only that tag's name changes, to the submission unstripped, and the client is redirected exactly when no other tag holds that name; the commit fails exactly when another tag already holds it |
| AdminViews.TagEditAsWritten | app/admin/views.py:101-107 | as written, resubmitting the current name up to surrounding whitespace is never rejected, and is saved unstripped when no other tag holds the submission; a changed name held by another tag is rejected |
| AdminViews.TagEditAsWrittenLetsDuplicateThrough | app/admin/views.py:101-107 | as written, renaming a tag to the whitespace-padded name of another tag gets through the check, and the commit raises |
| AdminViews.TagEditAsWrittenRejectsOwnName | app/admin/views.py:101-104 | as written, a tag whose name ends in whitespace cannot be saved unchanged |
| AdminViews.TagEditAsWrittenDuplicateExample | app/admin/views.py:101-107 | tags "foo" and " foo": renaming "foo" to " foo" raises an integrity error |
| AdminViews.TagEditAsWrittenOwnNameExample | app/admin/views.py:101-104 | a lone tag "foo " resubmitted unchanged is rejected as a duplicate |
| AdminViews.TagEdit | app/admin/views.py:94-110 | corrected: a rename is rejected exactly when another tag holds the new name, succeeds exactly when none does, and the commit never fails |
| AdminViews.InsertNewest | app/admin/views.py:78-79 | inserting a tag into a newest-first listing keeps it newest first and adds exactly that tag |
| AdminViews.ListNewestFirst | app/admin/views.py:75-81 | the listing order holds every tag exactly once, newest first |
| AdminViews.TagList | app/admin/views.py:75-81 | a listing page renders exactly when it is page 1 or a page from 1 up to the number of three-tag pages; any other page is a 404; nothing changes |
| AdminViews.Dispatch | app/admin/views.py:13-19 | an admin request, as written or corrected, keeps the database valid, touches only the tag table and its counter, and changes no session key but `"admin"`; a 405 changes nothing |
| AdminViews.WrongMethodChangesNothing | app/admin/views.py:75-86 | a request answers 405 exactly when its verb is outside the route's `methods=` list; a POST to the tag list, tag delete, index or sign-out changes nothing |
| AdminViews.HeadRunsAsGet | app/admin/views.py:84-89 | a HEAD request does exactly what the same GET does, so a HEAD to tag delete or sign-out has its effect |
| AdminViews.GateStopsSignedOut | app/admin/views.py:16-17 | without a non-None `"admin"`, every gated route redirects an accepted verb to the admin login with the requested URL as `next`, and changes nothing |
| AdminViews.GatePassesSignedIn | app/admin/views.py:18 | with a non-None `"admin"`, an accepted verb reaches the wrapped view unchanged |
| AdminViews.SignInResumesRequest | app/admin/views.py:16-39 | a signed-out request goes to login with its URL, signing in returns to that URL, and the same request then reaches its view |
| HomeViews.Login | app/home/views.py:46-67 | a GET or failed form renders; a stripped name no member holds is rejected, and a wrong password is rejected, each with nothing changed; otherwise the session gets that member's name and id, exactly one login record for that id is appended, and the client is redirected to a non-empty `next`, or to the index when `next` is absent or empty |
| HomeViews.LoginConsultsOnlyVerify | app/models.py:32-33 | the member's stored hash is used only through `check_pwd`, and only for the member the stripped name finds |
| HomeViews.LoginSessionAgrees | app/home/views.py:58-59 | after sign-in, `"user"` holds the stripped name and `"user_id"` is a member with that name |
| HomeViews.Logout | app/home/views.py:70-74 | sign-out removes `"user"` and `"user_id"` and keeps every other key (an administrator stays signed in) and the database |
| HomeViews.LogoutIdempotent | app/home/views.py:72-73 | signing out twice is signing out once |
| HomeViews.UserUpdateWith | app/home/views.py:96-138 | a missing `"user_id"` raises; an id that is no member is a 404; a GET or failed form renders; the checks run in the order name, email, phone, and each rejects with nothing changed exactly when it is the first to find a changed value held in the table; otherwise exactly name, email, phone and info are written, the avatar only when one was uploaded, and the session is left alone |
| HomeViews.UserUpdateAsWritten | app/home/views.py:109-122 | as written, resubmitting the current name, email and phone up to surrounding whitespace is never rejected |
| HomeViews.StrippedResubmitPasses | app/home/views.py:112-122 | as written, resubmitting the current name, email and phone up to surrounding whitespace passes all three checks |
| HomeViews.UserUpdateAsWrittenLetsDuplicateThrough | app/home/views.py:109-135 | as written, renaming a member to the whitespace-padded name of another member gets through the checks, and the commit raises |
| HomeViews.UnclashedUpdateCommits | app/home/views.py:126-135 | with no clash, the profile handler commits the overwritten record |
| HomeViews.UserUpdateAsWrittenRejectsOwnName | app/home/views.py:109-114 | as written, a member whose name ends in whitespace cannot save the profile unchanged |
| HomeViews.UserUpdateAsWrittenDuplicateExample | app/home/views.py:109-135 | members "bob" and " bob": member "bob" saving the name " bob" raises an integrity error |
| HomeViews.UserUpdate | app/home/views.py:96-138 | corrected: a new name is rejected exactly when another member holds it, then likewise the email, then the phone; values no other member holds are always saved |
| HomeViews.UserUpdateFreeCommits | app/home/views.py:124-135 | corrected: values no other member holds, with a fresh avatar name, always commit |
| HomeViews.PwdAsWritten | app/home/views.py:141-153 | as written: a GET or failed form renders; a missing `"user"` raises, and a name no member holds raises; otherwise the member now holding the session's name gets the new hash, and only that hash changes |
| HomeViews.SetPassword | app/home/views.py:148-152 | storing a new hash changes only that member's password and sends the client to sign out |
| HomeViews.PwdAsWrittenHitsOtherMember | app/home/views.py:147-150 | as written, when the session's name belongs to another member than its id, the other member's hash is replaced and the signed-in member keeps its own |
| HomeViews.RenameCommits | app/home/views.py:109-137 | as written, a member whose stored email and phone carry no surrounding whitespace can rename itself to a trimmed name nobody else holds: the commit succeeds, only that member's name and info change, and the session keeps the old name |
| HomeViews.StaleSessionRedirectsPasswordChange | app/home/views.py:109-150 | as written, three requests (a rename, a second member taking the old name, a password change with an accepted form) replace the second member's hash and leave the first member's as it was |
| HomeViews.Pwd | app/home/views.py:141-153 | corrected: the new hash always lands on the member named by `"user_id"`, only that hash changes, and a missing key raises |
| HomeViews.Dispatch | app/home/views.py:26-33 | a member request, as written or corrected, keeps the database valid, touches only the member and login-log tables, and changes no session key outside `"user"` and `"user_id"`; a 405 changes nothing |
| HomeViews.WrongMethodChangesNothing | app/home/views.py:36-74 | a request answers 405 exactly when its verb is outside the route's `methods=` list; a POST to the index or to sign-out changes nothing |
| HomeViews.HeadRunsAsGet | app/home/views.py:70-74 | a HEAD request does exactly what the same GET does, so a HEAD to sign-out signs the member out |
| HomeViews.GateStopsSignedOut | app/home/views.py:29-30 | without a non-None `"user"`, every gated route redirects an accepted verb to the member login with the requested URL as `next`, and changes nothing |
| HomeViews.GatePassesSignedIn | app/home/views.py:31 | with a non-None `"user"`, an accepted verb reaches the wrapped view unchanged |
| Site.Serve | app/models.py:133-160 | every modelled request keeps the tables valid, so Auth name, Auth url and Role name stay unique; roles, permissions and administrators are never written; each blueprint leaves the other's tables alone |
| Site.ServeKeepsRoles | app/models.py:171 | no modelled request changes which role an administrator has |
| Site.AdminRequestKeepsMember | app/admin/views.py:45 | an administrator request, sign-out included, leaves the member sign-in exactly as it was |
| Site.MemberRequestKeepsAdmin | app/home/views.py:72-73 | a member request, sign-out included, leaves the administrator sign-in exactly as it was |
| Site.MemberSessionOpensNoAdminPage | app/admin/views.py:16-17 | a session holding only member keys opens no gated administrator page: an accepted verb is sent to the admin login, any other gets a 405, and nothing changes |
| Site.AdminSessionOpensNoMemberPage | app/home/views.py:29-30 | a session holding only the administrator key opens no gated member page: an accepted verb is sent to the member login, any other gets a 405, and nothing changes |

## Left out

- File upload and `change_filename` depend on the filesystem, the clock and `uuid4`. The profile handler takes the stored avatar file name as an input (`None` when no file was sent). Creating the upload directory is not modelled.
- Password hashing is not modelled. `check_pwd` is the `verify` parameter, and the new hash in the password change is an input.
- The home forms module (`RegisterForm`, `LoginForm`, `UserDetailForm`, `PwdForm`) is not part of this model. Whether such a form validates is a boolean input, `formValid`.
- `HomeViews.Pwd` and `HomeViews.PwdAsWritten` do not check the old password, because the validator that would do so belongs to the home forms module. `HomeViews.StaleSessionRedirectsPasswordChange` takes the password form as accepted. If the home `PwdForm` checks the old password against the member named in `session["user"]`, as the administrator `PwdForm` does at app/admin/forms.py:258-266, the scenario also needs the first member to know the second member's password.
- Templates, `flash` texts, `render_kw` and the CSRF token are not modelled. A flash followed by a redirect is the response `Rejected(reason, target)`.
- `AdminViews.TagList` models which pages `paginate` answers with a 404, but the rendered page carries only its number. Which three tags it shows is the slice of the `AdminViews.ListNewestFirst` order, which is not stated as a function. The member `loginlog` page is not modelled.
- `register` (app/home/views.py:77-93) inserts a member and commits. It is outside the modelled handlers. The render-only views are left out too: animation, comments, moviecol, search, play, and the admin movie, preview, role, auth and admin pages. The two index pages are modelled as renders.
- GET, HEAD and POST are modelled; HEAD runs the view as GET does. OPTIONS is not modelled: Flask answers it itself without running the view.
- `Forms.StarErrors` takes the coerced star value. A missing or uncoercible value is `None`. The "could not coerce" process error is not listed separately, because `DataRequired` clears the field's errors before reporting its own. The admin `pwd` view at app/admin/views.py:49-52 only renders, so `PwdForm` is modelled as a form (`Forms.ValidateOldPwd`) and no handler uses it.
- The import-time queries in app/admin/forms.py that fill the tag, role and permission selects, and the debug prints in the admin login, are left out. The select fields whose choices come from the database are not checked.
- Roles, permissions and the administrator and operation logs are schema only. No handler checks a role or writes a log, so neither does the model.
- `tag_del` does not model the `movie.tag_id` foreign key. Movies are not part of this model.
- The database's string comparison is taken to be exact. A collation that ignores case or trailing spaces would change which names collide.
- Column widths (`String(100)`, `String(11)`) are not enforced.
- `Text.Strip` removes the characters for which `str.isspace()` holds, as `str.strip()` does. Unicode data tables are not modelled beyond that fixed set.
- A session `"user_id"` that is not an integer is treated as an unknown member (a 404).

## Findings

| source | as written | input that shows it | evidently intended | confidence | as-written member | corrected member |
|---|---|---|---|---|---|---|
| app/admin/views.py:101-105 | `tag_edit` compares the stored name with the stripped submission, but counts and stores the submission unstripped | tags 1 "foo" and 2 " foo": renaming tag 1 to " foo" passes the check and the commit raises an integrity error; a lone tag "foo " resubmitted unchanged is rejected as already existing | reject a rename exactly when another tag holds the value that is stored | medium: not executed; assumes exact string comparison in the database | AdminViews.TagEditAsWrittenDuplicateExample | AdminViews.TagEdit |
| app/home/views.py:109-122 | `user()` makes the same comparison for name, email and phone | members 1 "bob" and 2 " bob": member 1 saving the name " bob" passes the check and the commit raises an integrity error | reject a change exactly when another member holds the value that is stored | medium: not executed; assumes exact string comparison in the database | HomeViews.UserUpdateAsWrittenDuplicateExample | HomeViews.UserUpdate |
| app/home/views.py:147 | `pwd()` finds the member by the name in `session["user"]`, which `user()` does not refresh on a rename | member 1 "a" signs in and renames itself "b"; member 2 renames itself "a"; member 1 changes its password and member 2's hash is replaced | find the member by `session["user_id"]`, as `user()` does | low: not executed; assumes the home `PwdForm`, which is not part of this model, accepts the submission, which may need member 2's password | HomeViews.StaleSessionRedirectsPasswordChange | HomeViews.Pwd |

=== FILE: admin_views.dfy ===
/** The administrator blueprint of app/admin/views.py: the `user_login`
    gate, sign-in and sign-out, and the tag registry. Each view is a pure
    transition from the state before the request to the state after it plus
    the response. */
module AdminViews {
  import opened Options
  import opened Text
  import opened Models
  import opened Web
  import opened Forms

  /** The submitted `LoginForm`. */
  datatype LoginForm = LoginForm(account: string, pwd: string)

  /** The `user_login` decorator: without a non-None session["admin"] the
      wrapped view does not run and the client is sent to the login page
      with the requested URL as `next`. */
  function Gate(st: State, url: string, inner: Step): Step
  {
    if AdminSignedIn(st.session) then inner else Step(st, Redirect(AdminLogin(Some(url))))
  }

  /** The keys other than `key` are exactly as they were. */
  predicate SameExcept(s: Session, s': Session, key: string)
  {
    && s.Keys - {key} == s'.Keys - {key}
    && forall k :: k in s && k != key ==> k in s' && s[k] == s'[k]
  }

  // ---- sign-in and sign-out ----

  /** `validate_on_submit()` holds for the login form. */
  predicate LoginAccepted(db: Db, req: Request, form: LoginForm)
  {
    req.verb == Post && Present(form.account) && Present(form.pwd) && AdminNameTaken(db.admins, form.account)
  }

  /** Some administrator has exactly this name and the stored hash accepts
      the password. */
  predicate Authenticates(admins: map<nat, Admin>, account: string, pwd: string, verify: Verifier)
  {
    exists i :: i in admins && admins[i].name == account && verify(admins[i].pwd, pwd)
  }

  /** `login()`. */
  function Login(st: State, req: Request, form: LoginForm, verify: Verifier): (r: Step)
    requires Valid(st.db)
    ensures r.state.db == st.db
    ensures !LoginAccepted(st.db, req, form) ==> r.state == st && r.outcome.Rendered?
    ensures req.verb == Post && !LoginAccepted(st.db, req, form) ==>
              r.outcome == Rendered(AdminLoginPage(AdminLoginErrors(st.db.admins, form.account, form.pwd)))
    ensures r.outcome == Rejected(PasswordWrong, AdminLogin(None)) <==>
              LoginAccepted(st.db, req, form) && !Authenticates(st.db.admins, form.account, form.pwd, verify)
    ensures r.outcome.Redirect? <==>
              LoginAccepted(st.db, req, form) && Authenticates(st.db.admins, form.account, form.pwd, verify)
    ensures r.outcome.Redirect? && req.next.Some? && req.next.value != [] ==> r.outcome == Redirect(Resume(req.next.value))
    ensures r.outcome.Redirect? && (req.next.None? || req.next.value == []) ==> r.outcome == Redirect(AdminIndex)
    ensures r.outcome.Redirect? ==> r.state.session == st.session[AdminKey := Str(form.account)]
    ensures !r.outcome.Redirect? ==> r.state.session == st.session
  {
    if req.verb != Post then
      Step(st, Rendered(AdminLoginPage(map[])))
    else
      var errs := AdminLoginErrors(st.db.admins, form.account, form.pwd);
      if errs != map[] then
        Step(st, Rendered(AdminLoginPage(errs)))
      else
        var id := FindAdminByName(st.db.admins, form.account).value;
        if !verify(st.db.admins[id].pwd, form.pwd) then
          Step(st, Rejected(PasswordWrong, AdminLogin(None)))
        else
          Step(st.(session := st.session[AdminKey := Str(form.account)]), Redirect(ResumeOr(req.next, AdminIndex)))
  }

  /** The stored hash is only ever consulted through `verify`, and only for
      the administrator named in the form: two verifiers that agree there
      give the same response. */
  lemma LoginConsultsOnlyVerify(st: State, req: Request, form: LoginForm, v1: Verifier, v2: Verifier)
    requires Valid(st.db)
    requires forall i :: i in st.db.admins && st.db.admins[i].name == form.account ==>
               v1(st.db.admins[i].pwd, form.pwd) == v2(st.db.admins[i].pwd, form.pwd)
    ensures Login(st, req, form, v1) == Login(st, req, form, v2)
  {
  }

  /** `logout()`: `session.pop("admin", None)`. */
  function Logout(st: State): (r: Step)
    ensures AdminKey !in r.state.session && !AdminSignedIn(r.state.session)
    ensures SameExcept(st.session, r.state.session, AdminKey)
    ensures r.state.db == st.db
    ensures r.outcome == Redirect(AdminLogin(None))
  {
    Step(st.(session := Pop(st.session, AdminKey)), Redirect(AdminLogin(None)))
  }

  /** Signing out twice is the same as signing out once. */
  lemma LogoutIdempotent(st: State)
    ensures Logout(Logout(st).state) == Logout(st)
  {
    PopIdempotent(st.session, AdminKey);
  }

  // ---- the tag registry ----

  /** `db'` is `db` with tag `id` newly added as `t`, and nothing else changed. */
  predicate InsertedAt(db: Db, db': Db, id: nat, t: Tag)
  {
    && id !in db.tags
    && db'.tags == db.tags[id := t]
    && db' == db.(tags := db'.tags, nextTagId := db'.nextTagId)
  }

  /** `tag_add()`. */
  function TagAdd(st: State, req: Request, name: string): (r: Step)
    requires Valid(st.db)
    ensures Valid(r.state.db) && r.state.session == st.session
    ensures !r.outcome.Failed?
    ensures !(req.verb == Post && TagNameAccepted(name)) ==> r == Step(st, Rendered(TagAddForm))
    ensures r.outcome == Rejected(TagNameExists, TagAddPage) <==>
              req.verb == Post && TagNameAccepted(name) && TagNameTaken(st.db.tags, name)
    ensures r.outcome == Redirect(TagAddPage) <==>
              req.verb == Post && TagNameAccepted(name) && !TagNameTaken(st.db.tags, name)
    ensures !r.outcome.Redirect? ==> r.state == st
    ensures r.outcome.Redirect? ==>
              (exists id :: InsertedAt(st.db, r.state.db, id, Tag(name, req.now)))
              && |r.state.db.tags| == |st.db.tags| + 1
  {
    if req.verb != Post || !TagNameAccepted(name) then
      Step(st, Rendered(TagAddForm))
    else if TagNameTaken(st.db.tags, name) then
      Step(st, Rejected(TagNameExists, TagAddPage))
    else
      var id := st.db.nextTagId;
      var db' := st.db.(tags := st.db.tags[id := Tag(name, req.now)], nextTagId := id + 1);
      InsertTagKeepsValid(st.db, Tag(name, req.now));
      assert InsertedAt(st.db, db', id, Tag(name, req.now));
      Commit(st, db', st.session, Redirect(TagAddPage))
  }

  /** After a successful `tag_add`, exactly one tag carries the new name. */
  lemma TagAddNameHeldOnce(st: State, req: Request, name: string)
    requires Valid(st.db)
    requires TagAdd(st, req, name).outcome == Redirect(TagAddPage)
    ensures var tags := TagAdd(st, req, name).state.db.tags;
            TagNameTaken(tags, name)
            && forall i, j :: i in tags && j in tags && tags[i].name == name && tags[j].name == name ==> i == j
  {
    var r := TagAdd(st, req, name);
    var id :| InsertedAt(st.db, r.state.db, id, Tag(name, req.now));
    assert r.state.db.tags[id].name == name;
  }

  /** `tag_del()`: `first_or_404` on the id, then delete that tag alone. */
  function TagDel(st: State, req: Request, id: nat): (r: Step)
    requires Valid(st.db)
    ensures Valid(r.state.db) && r.state.session == st.session
    ensures id !in st.db.tags ==> r == Step(st, NotFound)
    ensures id in st.db.tags ==>
              && r.outcome == Redirect(TagListPage(1))
              && r.state.db.tags.Keys == st.db.tags.Keys - {id}
              && (forall j :: j in r.state.db.tags ==> r.state.db.tags[j] == st.db.tags[j])
              && r.state.db == st.db.(tags := r.state.db.tags)
  {
    if id !in st.db.tags then
      Step(st, NotFound)
    else
      RemoveTagKeepsValid(st.db, id);
      Commit(st, st.db.(tags := st.db.tags - {id}), st.session, Redirect(TagListPage(1)))
  }

  /** `db'` is `db` with tag `id` renamed to `name`, and nothing else changed. */
  predicate RenamedTo(db: Db, db': Db, id: nat, name: string)
  {
    && id in db.tags
    && db'.tags == db.tags[id := db.tags[id].(name := name)]
    && db' == db.(tags := db'.tags)
  }

  /** Another tag than `id` already holds exactly `name`. */
  predicate HeldByOther(tags: map<nat, Tag>, id: nat, name: string)
  {
    exists j :: j in tags && j != id && tags[j].name == name
  }

  /** `tag_edit()`, with the "did the name change" test made a parameter:
      `get_or_404(id)` first, then on a valid POST reject a changed name that
      some tag already holds, else store the submitted name unstripped. */
  function TagEditWith(st: State, req: Request, id: nat, name: string, cmp: Comparison): (r: Step)
    requires Valid(st.db)
    ensures Valid(r.state.db) && r.state.session == st.session
    ensures id !in st.db.tags ==> r == Step(st, NotFound)
    ensures id in st.db.tags && !(req.verb == Post && TagNameAccepted(name)) ==>
              r == Step(st, Rendered(TagEditForm(id)))
    ensures r.outcome == Rejected(TagNameExists, TagEditPage(id)) <==>
              id in st.db.tags && req.verb == Post && TagNameAccepted(name)
              && Changed(cmp, st.db.tags[id].name, name) && TagNameTaken(st.db.tags, name)
    ensures !r.outcome.Redirect? ==> r.state == st
    ensures r.outcome.Redirect? ==> r.outcome == Redirect(TagEditPage(id)) && RenamedTo(st.db, r.state.db, id, name)
    ensures r.outcome.Redirect? <==>
              id in st.db.tags && req.verb == Post && TagNameAccepted(name)
              && !(Changed(cmp, st.db.tags[id].name, name) && TagNameTaken(st.db.tags, name))
              && !HeldByOther(st.db.tags, id, name)
    ensures r.outcome == Failed(IntegrityError) <==>
              id in st.db.tags && req.verb == Post && TagNameAccepted(name)
              && !(Changed(cmp, st.db.tags[id].name, name) && TagNameTaken(st.db.tags, name))
              && HeldByOther(st.db.tags, id, name)
  {
    if id !in st.db.tags then
      Step(st, NotFound)
    else if req.verb != Post || !TagNameAccepted(name) then
      Step(st, Rendered(TagEditForm(id)))
    else if Changed(cmp, st.db.tags[id].name, name) && TagNameTaken(st.db.tags, name) then
      Step(st, Rejected(TagNameExists, TagEditPage(id)))
    else
      var db' := st.db.(tags := st.db.tags[id := st.db.tags[id].(name := name)]);
      if HeldByOther(st.db.tags, id, name) then
        var j :| j in st.db.tags && j != id && st.db.tags[j].name == name;
        assert db'.tags[j].name == db'.tags[id].name;
        Commit(st, db', st.session, Redirect(TagEditPage(id)))
      else
        RenameTagKeepsValid(st.db, id, name);
        Commit(st, db', st.session, Redirect(TagEditPage(id)))
  }

  /** `tag_edit()` as written: the stored name is compared with the STRIPPED
      submission, while the count and the update use it unstripped. Keeping
      the current name (up to surrounding whitespace) is never rejected. */
  function TagEditAsWritten(st: State, req: Request, id: nat, name: string): (r: Step)
    requires Valid(st.db)
    ensures id in st.db.tags && Strip(name) == st.db.tags[id].name ==> !r.outcome.Rejected?
    ensures id in st.db.tags && req.verb == Post && TagNameAccepted(name)
            && Strip(name) == st.db.tags[id].name && !HeldByOther(st.db.tags, id, name) ==>
              r.outcome == Redirect(TagEditPage(id)) && RenamedTo(st.db, r.state.db, id, name)
    ensures id in st.db.tags && req.verb == Post && TagNameAccepted(name)
            && Strip(name) != st.db.tags[id].name && HeldByOther(st.db.tags, id, name) ==>
              r == Step(st, Rejected(TagNameExists, TagEditPage(id)))
  {
    TagEditWith(st, req, id, name, AgainstStripped)
  }

  /** When another tag holds the current name with whitespace in front,
      renaming to that padded name passes the stripped comparison, and the
      commit then violates the unique tag name. */
  lemma TagEditAsWrittenLetsDuplicateThrough(st: State, req: Request, id: nat, j: nat, pad: string)
    requires Valid(st.db) && req.verb == Post
    requires id in st.db.tags && j in st.db.tags && j != id
    requires Trimmed(st.db.tags[id].name) && st.db.tags[id].name != []
    requires AllSpace(pad) && st.db.tags[j].name == pad + st.db.tags[id].name
    ensures TagEditAsWritten(st, req, id, pad + st.db.tags[id].name) == Step(st, Failed(IntegrityError))
  {
    var core := st.db.tags[id].name;
    var name := pad + core;
    StripOfPadded(pad, core, []);
    assert pad + core + [] == name;
    assert !Changed(AgainstStripped, core, name);
    assert TagNameAccepted(name);
    assert HeldByOther(st.db.tags, id, name) by {
      assert st.db.tags[j].name == name;
    }
    var r := TagEditWith(st, req, id, name, AgainstStripped);
    assert r.outcome == Failed(IntegrityError);
  }

  /** A tag whose stored name ends in whitespace cannot be saved unchanged:
      the stripped submission differs from the stored name, and the
      unstripped count finds the tag itself. */
  lemma TagEditAsWrittenRejectsOwnName(st: State, req: Request, id: nat, core: string, pad: string)
    requires Valid(st.db) && req.verb == Post
    requires id in st.db.tags && st.db.tags[id].name == core + pad
    requires Trimmed(core) && core != [] && AllSpace(pad) && pad != []
    ensures TagEditAsWritten(st, req, id, core + pad) == Step(st, Rejected(TagNameExists, TagEditPage(id)))
  {
    var name := core + pad;
    assert Strip(name) == core by {
      StripOfPadded([], core, pad);
      assert [] + core + pad == name;
    }
    assert TagNameAccepted(name) && Changed(AgainstStripped, st.db.tags[id].name, name) by {
      assert |core| < |name|;
    }
    assert TagNameTaken(st.db.tags, name);
    var r := TagEditWith(st, req, id, name, AgainstStripped);
    assert r.outcome == Rejected(TagNameExists, TagEditPage(id));
  }

  /** A concrete instance: with tags "foo" and " foo", renaming "foo" to
      " foo" fails with an integrity error. */
  lemma TagEditAsWrittenDuplicateExample()
    ensures var db := Db(map[], [], map[1 := Tag("foo", 0), 2 := Tag(" foo", 0)], 3, map[], map[], map[]);
            var st := State(db, map[AdminKey := Str("admin")]);
            Valid(db) &&
            TagEditAsWritten(st, Request(Post, "/admin/tag/edit/1/", None, "", 1), 1, " foo")
              == Step(st, Failed(IntegrityError))
  {
    var db := Db(map[], [], map[1 := Tag("foo", 0), 2 := Tag(" foo", 0)], 3, map[], map[], map[]);
    var st := State(db, map[AdminKey := Str("admin")]);
    var req := Request(Post, "/admin/tag/edit/1/", None, "", 1);
    assert Valid(db);
    assert Trimmed("foo") && AllSpace(" ");
    assert " " + "foo" == " foo";
    assert db.tags[2].name == " " + db.tags[1].name;
    TagEditAsWrittenLetsDuplicateThrough(st, req, 1, 2, " ");
  }

  /** A concrete instance: a lone tag "foo " resubmitted unchanged is
      rejected as a duplicate. */
  lemma TagEditAsWrittenOwnNameExample()
    ensures var db := Db(map[], [], map[1 := Tag("foo ", 0)], 2, map[], map[], map[]);
            var st := State(db, map[AdminKey := Str("admin")]);
            Valid(db) &&
            TagEditAsWritten(st, Request(Post, "/admin/tag/edit/1/", None, "", 1), 1, "foo ")
              == Step(st, Rejected(TagNameExists, TagEditPage(1)))
  {
    var db := Db(map[], [], map[1 := Tag("foo ", 0)], 2, map[], map[], map[]);
    var st := State(db, map[AdminKey := Str("admin")]);
    var req := Request(Post, "/admin/tag/edit/1/", None, "", 1);
    assert Valid(db);
    assert Trimmed("foo") && AllSpace(" ");
    assert "foo" + " " == "foo ";
    TagEditAsWrittenRejectsOwnName(st, req, 1, "foo", " ");
  }

  /** `tag_edit()` with the comparison made on the value that is counted and
      stored: a rename is rejected exactly when another tag holds the new
      name, and the commit never fails. */
  function TagEdit(st: State, req: Request, id: nat, name: string): (r: Step)
    requires Valid(st.db)
    ensures !r.outcome.Failed?
    ensures r.outcome == Rejected(TagNameExists, TagEditPage(id)) <==>
              id in st.db.tags && req.verb == Post && TagNameAccepted(name) && HeldByOther(st.db.tags, id, name)
    ensures r.outcome.Redirect? <==> id in st.db.tags && req.verb == Post && TagNameAccepted(name) && !HeldByOther(st.db.tags, id, name)
  {
    var r := TagEditWith(st, req, id, name, AgainstSubmitted);
    assert id in st.db.tags && TagNameTaken(st.db.tags, name) && st.db.tags[id].name != name ==> HeldByOther(st.db.tags, id, name);
    r
  }

  // ---- listing ----

  /** Tags per listing page. */
  const PerPage: nat := 3

  /** `tag_list()`: `paginate(page, per_page=3)` aborts with 404 for a page
      below 1, and for a page past the first that holds no tag. */
  function TagList(st: State, page: nat): (r: Step)
    ensures r.state == st
    ensures r.outcome == Rendered(TagListing(page)) || r.outcome == NotFound
    ensures r.outcome.Rendered? <==> page == 1 || (1 <= page && page <= (|st.db.tags| + PerPage - 1) / PerPage)
  {
    if page < 1 || (page != 1 && (page - 1) * PerPage >= |st.db.tags|) then
      Step(st, NotFound)
    else
      Step(st, Rendered(TagListing(page)))
  }

  /** `order_by(Tag.add_time.desc())`: every listed id is a tag, and newer
      tags come first. */
  predicate NewestFirst(tags: map<nat, Tag>, ids: seq<nat>)
  {
    && (forall a :: 0 <= a < |ids| ==> ids[a] in tags)
    && (forall a, b :: 0 <= a < b < |ids| ==> tags[ids[a]].addTime >= tags[ids[b]].addTime)
  }

  /** Places `k` in a newest-first listing, before the first tag that is not
      newer than it. */
  function InsertNewest(tags: map<nat, Tag>, ids: seq<nat>, k: nat): (r: seq<nat>)
    requires k in tags && NewestFirst(tags, ids)
    ensures NewestFirst(tags, r)
    ensures multiset(r) == multiset(ids) + multiset{k}
    decreases |ids|
  {
    if ids == [] then
      [k]
    else if tags[k].addTime >= tags[ids[0]].addTime then
      NewestFirstCons(tags, k, ids);
      [k] + ids
    else
      var rest := InsertNewest(tags, ids[1..], k);
      assert ids == [ids[0]] + ids[1..];
      HeadNotOlderThanRest(tags, ids, k, rest);
      NewestFirstCons(tags, ids[0], rest);
      [ids[0]] + rest
  }

  /** The head of a newest-first listing is not older than anything left
      after it, nor than a tag older than itself. */
  lemma HeadNotOlderThanRest(tags: map<nat, Tag>, ids: seq<nat>, k: nat, rest: seq<nat>)
    requires k in tags && NewestFirst(tags, ids) && ids != []
    requires tags[k].addTime < tags[ids[0]].addTime
    requires NewestFirst(tags, rest) && multiset(rest) == multiset(ids[1..]) + multiset{k}
    ensures forall a :: 0 <= a < |rest| ==> tags[ids[0]].addTime >= tags[rest[a]].addTime
  {
    forall a | 0 <= a < |rest|
      ensures tags[ids[0]].addTime >= tags[rest[a]].addTime
    {
      assert rest[a] in multiset(rest);
      if rest[a] != k {
        assert rest[a] in multiset(ids[1..]);
        var b :| 0 <= b < |ids[1..]| && ids[1..][b] == rest[a];
        assert ids[b + 1] == rest[a];
      }
    }
  }

  lemma NewestFirstCons(tags: map<nat, Tag>, h: nat, rest: seq<nat>)
    requires h in tags && NewestFirst(tags, rest)
    requires forall a :: 0 <= a < |rest| ==> tags[h].addTime >= tags[rest[a]].addTime
    ensures NewestFirst(tags, [h] + rest)
  {
    var s := [h] + rest;
    forall a, b | 0 <= a < b < |s|
      ensures tags[s[a]].addTime >= tags[s[b]].addTime
    {
      assert s[b] == rest[b - 1];
      if a > 0 {
        assert s[a] == rest[a - 1];
      }
    }
  }

  /** The order the tag listing pages through: each tag exactly once,
      newest first (ties in any order). */
  method ListNewestFirst(tags: map<nat, Tag>) returns (ids: seq<nat>)
    ensures NewestFirst(tags, ids)
    ensures forall i :: multiset(ids)[i] == if i in tags then 1 else 0
  {
    ids := [];
    var rest := tags.Keys;
    while rest != {}
      invariant rest <= tags.Keys
      invariant NewestFirst(tags, ids)
      invariant forall x :: multiset(ids)[x] == (if x in tags.Keys && x !in rest then 1 else 0)
      decreases |rest|
    {
      var k :| k in rest;
      ids := InsertNewest(tags, ids, k);
      rest := rest - {k};
    }
  }

  // ---- routing ----

  /** The admin routes this model covers, with their submitted data. */
  datatype Route =
    | IndexRoute
    | LoginRoute(form: LoginForm)
    | LogoutRoute
    | TagAddRoute(name: string)
    | TagListRoute(page: nat)
    | TagDelRoute(id: nat)
    | TagEditRoute(id: nat, name: string)

  /** Every route but login and logout is wrapped in `user_login`. */
  predicate Gated(route: Route)
  {
    !route.LoginRoute? && !route.LogoutRoute?
  }

  /** The `methods=` list of each route. */
  function MethodsOf(route: Route): Methods
  {
    match route
    case LoginRoute(_) => GetAndPost
    case TagAddRoute(_) => GetAndPost
    case TagEditRoute(_, _) => GetAndPost
    case _ => GetOnly
  }

  /** The view function of a route, undecorated. `rev` chooses between
      `tag_edit` as written and the corrected rename. */
  function View(st: State, req: Request, route: Route, verify: Verifier, rev: Revision): Step
    requires Valid(st.db)
  {
    match route
    case IndexRoute => Step(st, Rendered(AdminHomePage))
    case LoginRoute(form) => Login(st, req, form, verify)
    case LogoutRoute => Logout(st)
    case TagAddRoute(name) => TagAdd(st, req, name)
    case TagListRoute(page) => TagList(st, page)
    case TagDelRoute(id) => TagDel(st, req, id)
    case TagEditRoute(id, name) =>
      if rev == AsWritten then TagEditAsWritten(st, req, id, name) else TagEdit(st, req, id, name)
  }

  /** `r` leaves the member, administrator, role and permission tables and
      every session key but "admin" as they were in `st`, and its database
      is valid. */
  predicate AdminFrame(st: State, r: Step)
  {
    && Valid(r.state.db)
    && r.state.db == st.db.(tags := r.state.db.tags, nextTagId := r.state.db.nextTagId)
    && SameExcept(st.session, r.state.session, AdminKey)
  }

  lemma TagAddFrame(st: State, req: Request, name: string)
    requires Valid(st.db)
    ensures AdminFrame(st, TagAdd(st, req, name))
  {
    var r := TagAdd(st, req, name);
    if r.outcome.Redirect? {
      var id :| InsertedAt(st.db, r.state.db, id, Tag(name, req.now));
    }
  }

  lemma LoginFrame(st: State, req: Request, form: LoginForm, verify: Verifier)
    requires Valid(st.db)
    ensures AdminFrame(st, Login(st, req, form, verify))
  {
    var r := Login(st, req, form, verify);
    if r.outcome.Redirect? {
      SetKeyKeepsOthers(st.session, AdminKey, Str(form.account));
    }
  }

  /** Writing one key keeps every other key. */
  lemma SetKeyKeepsOthers(s: Session, key: string, v: Value)
    ensures SameExcept(s, s[key := v], key)
  {
  }

  lemma TagEditFrame(st: State, req: Request, id: nat, name: string)
    requires Valid(st.db)
    ensures AdminFrame(st, TagEditAsWritten(st, req, id, name))
    ensures AdminFrame(st, TagEdit(st, req, id, name))
  {
    var r1 := TagEditWith(st, req, id, name, AgainstStripped);
    assert r1 == TagEditAsWritten(st, req, id, name);
    var r2 := TagEditWith(st, req, id, name, AgainstSubmitted);
    assert r2 == TagEdit(st, req, id, name);
  }

  /** No admin view touches the member tables or the member session keys,
      and the database stays valid. */
  lemma ViewFrame(st: State, req: Request, route: Route, verify: Verifier, rev: Revision)
    requires Valid(st.db)
    ensures AdminFrame(st, View(st, req, route, verify, rev))
  {
    match route
    case IndexRoute =>
    case LoginRoute(form) => LoginFrame(st, req, form, verify);
    case LogoutRoute =>
    case TagAddRoute(name) => TagAddFrame(st, req, name);
    case TagListRoute(page) =>
    case TagDelRoute(id) =>
    case TagEditRoute(id, name) => TagEditFrame(st, req, id, name);
  }

  /** A request to the admin blueprint: Flask's method check, the gate,
      then the view. No admin route touches the member tables or the member
      session keys, and the database stays valid. */
  function Dispatch(st: State, req: Request, route: Route, verify: Verifier, rev: Revision): (r: Step)
    requires Valid(st.db)
    ensures Valid(r.state.db)
    ensures r.state.db == st.db.(tags := r.state.db.tags, nextTagId := r.state.db.nextTagId)
    ensures SameExcept(st.session, r.state.session, AdminKey)
    ensures r.outcome == MethodNotAllowed ==> r.state == st
  {
    if !Accepts(MethodsOf(route), req.verb) then
      Step(st, MethodNotAllowed)
    else
      var inner := View(st, req, route, verify, rev);
      ViewFrame(st, req, route, verify, rev);
      if Gated(route) then Gate(st, req.url, inner) else inner
  }

  /** A verb outside the route's `methods=` list is answered with 405
      before the gate or the view runs; `tag_del`, `tag_list`, the index and
      sign-out accept GET only. */
  lemma WrongMethodChangesNothing(st: State, req: Request, route: Route, verify: Verifier, rev: Revision)
    requires Valid(st.db)
    ensures Dispatch(st, req, route, verify, rev).outcome == MethodNotAllowed <==> !Accepts(MethodsOf(route), req.verb)
    ensures req.verb == Post && (route.TagDelRoute? || route.TagListRoute? || route.IndexRoute? || route.LogoutRoute?) ==>
              Dispatch(st, req, route, verify, rev) == Step(st, MethodNotAllowed)
  {
    if Accepts(MethodsOf(route), req.verb) {
      ViewNeverRefusesMethod(st, req, route, verify, rev);
    }
  }

  /** A HEAD request does exactly what the same GET does: the view runs,
      so a HEAD to a GET-only route with an effect has that effect. */
  lemma HeadRunsAsGet(st: State, req: Request, route: Route, verify: Verifier, rev: Revision)
    requires Valid(st.db) && req.verb == Head
    ensures Dispatch(st, req, route, verify, rev) == Dispatch(st, req.(verb := Get), route, verify, rev)
  {
  }

  /** Only the method check answers 405; no view does. */
  lemma ViewNeverRefusesMethod(st: State, req: Request, route: Route, verify: Verifier, rev: Revision)
    requires Valid(st.db)
    ensures View(st, req, route, verify, rev).outcome != MethodNotAllowed
  {
    var inner := View(st, req, route, verify, rev);
    match route
    case TagListRoute(page) =>
    case TagDelRoute(id) =>
    case LoginRoute(form) =>
    case TagAddRoute(name) =>
    case TagEditRoute(id, name) =>
      var w := TagEditWith(st, req, id, name, if rev == AsWritten then AgainstStripped else AgainstSubmitted);
    case _ =>
  }

  /** Signed out, every gated route answers an accepted verb with a redirect
      to the login page carrying the requested URL, and changes nothing. */
  lemma GateStopsSignedOut(st: State, req: Request, route: Route, verify: Verifier, rev: Revision)
    requires Valid(st.db) && Gated(route) && !AdminSignedIn(st.session)
    ensures Dispatch(st, req, route, verify, rev)
              == Step(st, if Accepts(MethodsOf(route), req.verb) then Redirect(AdminLogin(Some(req.url))) else MethodNotAllowed)
  {
  }

  /** Signed in, an accepted verb reaches the wrapped view unchanged. */
  lemma GatePassesSignedIn(st: State, req: Request, route: Route, verify: Verifier, rev: Revision)
    requires Valid(st.db) && AdminSignedIn(st.session)
    ensures Dispatch(st, req, route, verify, rev)
              == if Accepts(MethodsOf(route), req.verb) then View(st, req, route, verify, rev) else Step(st, MethodNotAllowed)
  {
  }

  /** The resume round trip: a signed-out request is sent to the login page
      with its URL as `next`; signing in with that `next` redirects back to
      the URL with the session set; and the same request then reaches its
      view. */
  lemma SignInResumesRequest(st: State, req: Request, route: Route, login: Request, form: LoginForm, verify: Verifier, rev: Revision)
    requires Valid(st.db) && Gated(route) && !AdminSignedIn(st.session) && req.url != []
    requires Accepts(MethodsOf(route), req.verb)
    requires login.verb == Post && login.next == Some(req.url)
    requires Present(form.account) && Present(form.pwd)
    requires Authenticates(st.db.admins, form.account, form.pwd, verify)
    ensures var r1 := Dispatch(st, req, route, verify, rev);
            r1 == Step(st, Redirect(AdminLogin(Some(req.url))))
            && var r2 := Dispatch(r1.state, login, LoginRoute(form), verify, rev);
            r2.outcome == Redirect(Resume(req.url))
            && AdminSignedIn(r2.state.session)
            && Dispatch(r2.state, req, route, verify, rev) == View(r2.state, req, route, verify, rev)
  {
    GateStopsSignedOut(st, req, route, verify, rev);
    var r2 := Dispatch(st, login, LoginRoute(form), verify, rev);
    assert LoginAccepted(st.db, login, form);
    assert r2 == Login(st, login, form, verify);
    GatePassesSignedIn(r2.state, req, route, verify, rev);
  }
}

=== FILE: forms.dfy ===
/** The decision logic of the administrator forms in app/admin/forms.py.
    Field validators run in declaration order; a failing `DataRequired`
    stops the remaining validators of its own field. */
module Forms {
  import opened Options
  import opened Text
  import opened Models
  import opened Web

  /** `LoginForm.validate()`, as `form.errors`. The account field is
      required, and `validate_account` then fails it when no administrator has
      exactly that name; the password field is required. */
  function AdminLoginErrors(admins: map<nat, Admin>, account: string, pwd: string): (errs: map<Field, FieldError>)
    ensures Account in errs <==> !Present(account) || !AdminNameTaken(admins, account)
    ensures Account in errs ==> errs[Account] == (if Present(account) then AccountMissing else Required(Account))
    ensures Password in errs <==> !Present(pwd)
    ensures errs == map[] <==> Present(account) && AdminNameTaken(admins, account) && Present(pwd)
  {
    var e1: map<Field, FieldError> :=
      if !Present(account) then map[Account := Required(Account)]
      else if !AdminNameTaken(admins, account) then map[Account := AccountMissing]
      else map[];
    var errs := if !Present(pwd) then e1[Password := Required(Password)] else e1;
    assert Account in errs || Password in errs ==> errs != map[];
    errs
  }

  /** `Tagform`: the name is required; nothing else is checked. */
  predicate TagNameAccepted(name: string)
  {
    Present(name)
  }

  /** The verdict of one field's validators. */
  datatype Check = Pass | Invalid(error: FieldError) | Raises(fault: Fault)

  /** `PwdForm.validate_old_pwd`: looks the administrator up by the name in
      session["admin"] and verifies the candidate against that record. A
      missing key raises KeyError; a name that matches no administrator
      leaves `admin` as None and raises on `check_pwd`. */
  function ValidateOldPwd(admins: map<nat, Admin>, session: Session, verify: Verifier, candidate: string): (r: Check)
    requires UniqueAdminNames(admins)
    ensures !Present(candidate) ==> r == Invalid(Required(OldPassword))
    ensures Present(candidate) && AdminKey !in session ==> r == Raises(MissingSessionKey)
    ensures r == Pass <==>
      Present(candidate) && AdminKey in session
      && exists i :: i in admins && session[AdminKey] == Str(admins[i].name) && verify(admins[i].pwd, candidate)
    ensures r == Invalid(OldPasswordWrong) <==>
      Present(candidate) && AdminKey in session
      && exists i :: i in admins && session[AdminKey] == Str(admins[i].name) && !verify(admins[i].pwd, candidate)
    ensures r == Raises(NoneRecord) <==>
      Present(candidate) && AdminKey in session
      && forall i :: i in admins ==> session[AdminKey] != Str(admins[i].name)
  {
    if !Present(candidate) then Invalid(Required(OldPassword))
    else if AdminKey !in session then Raises(MissingSessionKey)
    else
      var found := match session[AdminKey]
                   case Str(name) => FindAdminByName(admins, name)
                   case _ => None;
      match found
      case None => Raises(NoneRecord)
      case Some(i) => if verify(admins[i].pwd, candidate) then Pass else Invalid(OldPasswordWrong)
  }

  /** `AdminForm`: name, password and repeated password are required, and
      the repeated password must equal the password (`EqualTo('pwd')`).
      The role select is populated from the database at import time and is
      not checked here. The result is `form.errors`: at most one message per
      field, since each failure stops its field's chain. */
  function AdminFormErrors(name: string, pwd: string, repwd: string): (errs: map<Field, FieldError>)
    ensures errs.Keys <= {Name, Password, RePassword}
    ensures Name in errs <==> !Present(name)
    ensures Name in errs ==> errs[Name] == Required(Name)
    ensures Password in errs <==> !Present(pwd)
    ensures Password in errs ==> errs[Password] == Required(Password)
    ensures RePassword in errs <==> !Present(repwd) || repwd != pwd
    ensures RePassword in errs ==> errs[RePassword] == (if Present(repwd) then PasswordsDiffer else Required(RePassword))
    ensures errs == map[] <==> Present(name) && Present(pwd) && Present(repwd) && repwd == pwd
  {
    var e1: map<Field, FieldError> := if !Present(name) then map[Name := Required(Name)] else map[];
    var e2 := if !Present(pwd) then e1[Password := Required(Password)] else e1;
    if !Present(repwd) then e2[RePassword := Required(RePassword)]
    else if repwd != pwd then e2[RePassword := PasswordsDiffer]
    else e2
  }

  /** An administrator form that passes carries two equal, non-blank passwords. */
  lemma AcceptedAdminFormRepeatsPassword(name: string, pwd: string, repwd: string)
    requires AdminFormErrors(name, pwd, repwd) == map[]
    ensures repwd == pwd && Present(pwd) && Present(name)
  {
    assert Password !in AdminFormErrors(name, pwd, repwd);
    assert RePassword !in AdminFormErrors(name, pwd, repwd);
  }

  /** The choices of `Movieform.star`. */
  const StarChoices: seq<int> := [1, 2, 3, 4, 5]

  /** `Movieform.star`, as `field.errors`. `star` is the coerced value, or
      `None` when nothing was sent or it did not coerce to an integer.
      `SelectField.pre_validate` first records "Not a valid choice" for a
      value outside the choices; `DataRequired` then clears the errors and
      stops with its own message when the value is falsy (None or 0). */
  function StarErrors(star: Option<int>): (errs: seq<FieldError>)
    ensures errs == [] <==> star.Some? && 1 <= star.value <= 5
    ensures (star.None? || star.value == 0) ==> errs == [Required(Star)]
    ensures errs != [] && star.Some? && star.value != 0 ==> errs == [NotAChoice]
  {
    var chosen := star.Some? && star.value in StarChoices;
    var pre := if chosen then [] else [NotAChoice];
    if star.None? || star.value == 0 then [Required(Star)] else pre
  }
}

=== FILE: home_views.dfy ===
/** The member blueprint of app/home/views.py: its own `user_login` gate,
    sign-in and sign-out, the profile page and the password change. The home
    forms module is not part of this model, so whether a submitted form
    validates is an input (`formValid`) of every handler that reads one. */
module HomeViews {
  import opened Options
  import opened Text
  import opened Models
  import opened Web

  /** The member `user_login` decorator: without a non-None session["user"]
      the wrapped view does not run and the client is sent to the member
      login page with the requested URL as `next`. */
  function Gate(st: State, url: string, inner: Step): Step
  {
    if UserSignedIn(st.session) then inner else Step(st, Redirect(HomeLogin(Some(url))))
  }

  /** The keys other than the member keys are exactly as they were. */
  predicate OnlyMemberKeysChange(s: Session, s': Session)
  {
    && s.Keys - {UserKey, UserIdKey} == s'.Keys - {UserKey, UserIdKey}
    && forall k :: k in s && k != UserKey && k != UserIdKey ==> k in s' && s[k] == s'[k]
  }

  // ---- sign-in and sign-out ----

  /** The submitted member `LoginForm`. */
  datatype LoginForm = LoginForm(name: string, pwd: string)

  /** Some member has exactly this name and the stored hash accepts the password. */
  predicate UserAuthenticates(users: map<nat, User>, name: string, pwd: string, verify: Verifier)
  {
    exists i :: i in users && users[i].name == name && verify(users[i].pwd, pwd)
  }

  /** `st'` is `st` after member `id` signed in from `req`: the session holds
      the member's name and id, one login record is appended, and nothing
      else changed. */
  predicate SignedInAs(st: State, st': State, req: Request, id: nat)
  {
    && id in st.db.users
    && st'.session == st.session[UserKey := Str(st.db.users[id].name)][UserIdKey := Num(id)]
    && st'.db == st.db.(userLogs := st.db.userLogs + [UserLog(id, req.ip, req.now)])
  }

  /** `login()`: the member is looked up by the stripped name, then the
      password is verified against that member's hash. */
  function Login(st: State, req: Request, form: LoginForm, formValid: bool, verify: Verifier): (r: Step)
    requires Valid(st.db)
    ensures Valid(r.state.db)
    ensures !(req.verb == Post && formValid) ==> r == Step(st, Rendered(HomeLoginPage))
    ensures r.outcome == Rejected(UserUnknown, HomeLogin(None)) <==>
              req.verb == Post && formValid && !UserNameTaken(st.db.users, Strip(form.name))
    ensures r.outcome == Rejected(PasswordWrong, HomeLogin(None)) <==>
              req.verb == Post && formValid && UserNameTaken(st.db.users, Strip(form.name))
              && !UserAuthenticates(st.db.users, Strip(form.name), form.pwd, verify)
    ensures r.outcome.Redirect? <==>
              req.verb == Post && formValid && UserAuthenticates(st.db.users, Strip(form.name), form.pwd, verify)
    ensures r.outcome.Redirect? && req.next.Some? && req.next.value != [] ==> r.outcome == Redirect(Resume(req.next.value))
    ensures r.outcome.Redirect? && (req.next.None? || req.next.value == []) ==> r.outcome == Redirect(HomeIndex)
    ensures !r.outcome.Redirect? ==> r.state == st
    ensures r.outcome.Redirect? ==>
              exists id :: SignedInAs(st, r.state, req, id) && st.db.users[id].name == Strip(form.name)
  {
    if req.verb != Post || !formValid then
      Step(st, Rendered(HomeLoginPage))
    else
      match FindUserByName(st.db.users, Strip(form.name))
      case None => Step(st, Rejected(UserUnknown, HomeLogin(None)))
      case Some(id) =>
        if !verify(st.db.users[id].pwd, form.pwd) then
          Step(st, Rejected(PasswordWrong, HomeLogin(None)))
        else
          var u := st.db.users[id];
          var e := UserLog(id, req.ip, req.now);
          var db' := st.db.(userLogs := st.db.userLogs + [e]);
          AppendLogKeepsValid(st.db, e);
          var st' := State(db', st.session[UserKey := Str(u.name)][UserIdKey := Num(id)]);
          assert SignedInAs(st, st', req, id);
          Commit(st, db', st'.session, Redirect(ResumeOr(req.next, HomeIndex)))
  }

  /** The stored hash is only ever consulted through `verify`, and only for
      the member the stripped name finds: two verifiers that agree there
      give the same response. */
  lemma LoginConsultsOnlyVerify(st: State, req: Request, form: LoginForm, formValid: bool, v1: Verifier, v2: Verifier)
    requires Valid(st.db)
    requires forall i :: i in st.db.users && st.db.users[i].name == Strip(form.name) ==>
               v1(st.db.users[i].pwd, form.pwd) == v2(st.db.users[i].pwd, form.pwd)
    ensures Login(st, req, form, formValid, v1) == Login(st, req, form, formValid, v2)
  {
  }

  /** After a successful sign-in the session names the member that was
      looked up, and its id points back at that same member. */
  lemma LoginSessionAgrees(st: State, req: Request, form: LoginForm, formValid: bool, verify: Verifier)
    requires Valid(st.db)
    requires Login(st, req, form, formValid, verify).outcome.Redirect?
    ensures var s := Login(st, req, form, formValid, verify).state;
            && UserSignedIn(s.session)
            && s.session[UserKey] == Str(Strip(form.name))
            && exists id :: s.session[UserIdKey] == Num(id) && id in s.db.users && s.db.users[id].name == Strip(form.name)
  {
    var r := Login(st, req, form, formValid, verify);
    var id :| SignedInAs(st, r.state, req, id) && st.db.users[id].name == Strip(form.name);
    assert r.state.session[UserIdKey] == Num(id);
    assert r.state.session[UserKey] == Str(Strip(form.name));
  }

  /** `logout()`: pops "user" and "user_id"; an administrator signed in on
      the same client stays signed in. */
  function Logout(st: State): (r: Step)
    ensures UserKey !in r.state.session && UserIdKey !in r.state.session
    ensures !UserSignedIn(r.state.session)
    ensures OnlyMemberKeysChange(st.session, r.state.session)
    ensures r.state.db == st.db
    ensures r.outcome == Redirect(HomeLogin(None))
  {
    Step(st.(session := Pop(Pop(st.session, UserKey), UserIdKey)), Redirect(HomeLogin(None)))
  }

  /** Signing out twice is the same as signing out once. */
  lemma LogoutIdempotent(st: State)
    ensures Logout(Logout(st).state) == Logout(st)
  {
    var s1 := Pop(Pop(st.session, UserKey), UserIdKey);
    PopIdempotent(s1, UserKey);
    PopIdempotent(s1, UserIdKey);
  }

  // ---- the profile page ----

  /** The submitted `UserDetailForm` text fields. */
  datatype ProfileForm = ProfileForm(name: string, email: string, phone: string, info: string)

  /** The request is a valid POST from a session whose "user_id" is member `id`. */
  predicate Editing(st: State, req: Request, formValid: bool, id: nat)
  {
    && req.verb == Post && formValid
    && UserIdKey in st.session && st.session[UserIdKey] == Num(id)
    && id in st.db.users
  }

  /** The rejection tests of `user()`, in the order it runs them. */
  predicate NickClash(cmp: Comparison, users: map<nat, User>, id: nat, form: ProfileForm)
    requires id in users
  {
    Changed(cmp, users[id].name, form.name) && UserNameTaken(users, form.name)
  }

  predicate EmailClash(cmp: Comparison, users: map<nat, User>, id: nat, form: ProfileForm)
    requires id in users
  {
    Changed(cmp, users[id].email, form.email) && EmailTaken(users, form.email)
  }

  predicate PhoneClash(cmp: Comparison, users: map<nat, User>, id: nat, form: ProfileForm)
    requires id in users
  {
    Changed(cmp, users[id].phone, form.phone) && PhoneTaken(users, form.phone)
  }

  /** `db'` is `db` with member `id`'s profile overwritten by `form` (the
      avatar only when one was uploaded), and nothing else changed. */
  predicate ProfileWritten(db: Db, db': Db, id: nat, form: ProfileForm, face: Option<string>)
  {
    && id in db.users && id in db'.users
    && db'.users.Keys == db.users.Keys
    && (forall j :: j in db.users && j != id ==> db'.users[j] == db.users[j])
    && db' == db.(users := db'.users)
    && var u, u' := db.users[id], db'.users[id];
       && u'.name == form.name && u'.email == form.email && u'.phone == form.phone
       && u'.info == Some(form.info)
       && u'.face == (if face.Some? then face else u.face)
       && u'.pwd == u.pwd && u'.addTime == u.addTime && u'.uuid == u.uuid
  }

  /** A member record with the submitted profile written over it. */
  function Overwritten(u: User, form: ProfileForm, face: Option<string>): User
  {
    u.(name := form.name, email := form.email, phone := form.phone, info := Some(form.info),
       face := if face.Some? then face else u.face)
  }

  /** `user()`, with the "did the value change" test made a parameter.
      `face` is the stored file name of an uploaded avatar, `None` when no
      file was sent. The session is never updated, even on a rename. */
  function UserUpdateWith(st: State, req: Request, form: ProfileForm, face: Option<string>, formValid: bool, cmp: Comparison): (r: Step)
    requires Valid(st.db)
    ensures Valid(r.state.db) && r.state.session == st.session
    ensures UserIdKey !in st.session ==> r == Step(st, Failed(MissingSessionKey))
    ensures UserIdKey in st.session && (forall id: nat :: st.session[UserIdKey] == Num(id) ==> id !in st.db.users) ==>
              r == Step(st, NotFound)
    ensures ((exists id :: UserIdKey in st.session && st.session[UserIdKey] == Num(id) && id in st.db.users)
             && !(req.verb == Post && formValid)) ==> r == Step(st, Rendered(ProfilePage))
    ensures !r.outcome.Redirect? ==> r.state == st
    ensures r.outcome.Rejected? ==>
              r.outcome in {Rejected(NickTaken, UserPage), Rejected(EmailInUse, UserPage), Rejected(PhoneInUse, UserPage)}
    ensures r.outcome != MethodNotAllowed
    ensures forall id :: Editing(st, req, formValid, id) ==>
              && (r.outcome == Rejected(NickTaken, UserPage) <==> NickClash(cmp, st.db.users, id, form))
              && (r.outcome == Rejected(EmailInUse, UserPage) <==>
                    !NickClash(cmp, st.db.users, id, form) && EmailClash(cmp, st.db.users, id, form))
              && (r.outcome == Rejected(PhoneInUse, UserPage) <==>
                    !NickClash(cmp, st.db.users, id, form) && !EmailClash(cmp, st.db.users, id, form)
                    && PhoneClash(cmp, st.db.users, id, form))
    ensures r.outcome.Redirect? ==>
              r.outcome == Redirect(UserPage)
              && exists id :: Editing(st, req, formValid, id) && ProfileWritten(st.db, r.state.db, id, form, face)
  {
    if UserIdKey !in st.session then
      Step(st, Failed(MissingSessionKey))
    else if !st.session[UserIdKey].Num? || st.session[UserIdKey].n < 0 || st.session[UserIdKey].n !in st.db.users then
      Step(st, NotFound)
    else
      var id: nat := st.session[UserIdKey].n;
      if req.verb != Post || !formValid then
        Step(st, Rendered(ProfilePage))
      else
        assert Editing(st, req, formValid, id);
        var users := st.db.users;
        if NickClash(cmp, users, id, form) then
          Step(st, Rejected(NickTaken, UserPage))
        else if EmailClash(cmp, users, id, form) then
          Step(st, Rejected(EmailInUse, UserPage))
        else if PhoneClash(cmp, users, id, form) then
          Step(st, Rejected(PhoneInUse, UserPage))
        else
          var db' := st.db.(users := users[id := Overwritten(users[id], form, face)]);
          assert ProfileWritten(st.db, db', id, form, face);
          Commit(st, db', st.session, Redirect(UserPage))
  }

  /** Member `id` alone may use these values: no other member holds the
      name, email or phone, and the uploaded avatar name (if any) is new. */
  predicate FreeFor(users: map<nat, User>, id: nat, form: ProfileForm, face: Option<string>)
  {
    forall j :: j in users && j != id ==>
      && users[j].name != form.name
      && users[j].email != form.email
      && users[j].phone != form.phone
      && (face.None? || users[j].face != face)
  }

  /** `user()` as written: each stored value is compared with the STRIPPED
      submission, while the counts and the update use it unstripped.
      Resubmitting the current values (up to surrounding whitespace) is
      never rejected. */
  function UserUpdateAsWritten(st: State, req: Request, form: ProfileForm, face: Option<string>, formValid: bool): (r: Step)
    requires Valid(st.db)
    ensures forall id :: (Editing(st, req, formValid, id)
                          && Strip(form.name) == st.db.users[id].name
                          && Strip(form.email) == st.db.users[id].email
                          && Strip(form.phone) == st.db.users[id].phone) ==> !r.outcome.Rejected?
  {
    StrippedResubmitPasses(st, req, form, face, formValid);
    UserUpdateWith(st, req, form, face, formValid, AgainstStripped)
  }

  lemma StrippedResubmitPasses(st: State, req: Request, form: ProfileForm, face: Option<string>, formValid: bool)
    requires Valid(st.db)
    ensures forall id :: (Editing(st, req, formValid, id)
                          && Strip(form.name) == st.db.users[id].name
                          && Strip(form.email) == st.db.users[id].email
                          && Strip(form.phone) == st.db.users[id].phone) ==>
              !UserUpdateWith(st, req, form, face, formValid, AgainstStripped).outcome.Rejected?
  {
    forall id | Editing(st, req, formValid, id)
                && Strip(form.name) == st.db.users[id].name
                && Strip(form.email) == st.db.users[id].email
                && Strip(form.phone) == st.db.users[id].phone
      ensures !UserUpdateWith(st, req, form, face, formValid, AgainstStripped).outcome.Rejected?
    {
      assert !NickClash(AgainstStripped, st.db.users, id, form);
      assert !EmailClash(AgainstStripped, st.db.users, id, form);
      assert !PhoneClash(AgainstStripped, st.db.users, id, form);
    }
  }

  /** When another member holds this member's name with whitespace in front,
      renaming to that padded name passes the stripped comparison, and the
      commit then violates the unique member name. */
  lemma UserUpdateAsWrittenLetsDuplicateThrough(st: State, req: Request, id: nat, j: nat, pad: string, info: string)
    requires Valid(st.db) && id in st.db.users && j in st.db.users && j != id
    requires Editing(st, req, true, id)
    requires Trimmed(st.db.users[id].name) && Trimmed(st.db.users[id].email) && Trimmed(st.db.users[id].phone)
    requires AllSpace(pad) && st.db.users[j].name == pad + st.db.users[id].name
    ensures var u := st.db.users[id];
            UserUpdateAsWritten(st, req, ProfileForm(pad + u.name, u.email, u.phone, info), None, true)
              == Step(st, Failed(IntegrityError))
  {
    var u := st.db.users[id];
    var form := ProfileForm(pad + u.name, u.email, u.phone, info);
    assert !NickClash(AgainstStripped, st.db.users, id, form)
        && !EmailClash(AgainstStripped, st.db.users, id, form)
        && !PhoneClash(AgainstStripped, st.db.users, id, form) by {
      StripOfPadded(pad, u.name, []);
      assert pad + u.name + [] == form.name;
      TrimmedIsFixedPoint(u.email);
      TrimmedIsFixedPoint(u.phone);
    }
    var db' := st.db.(users := st.db.users[id := Overwritten(u, form, None)]);
    assert !Valid(db') by {
      assert db'.users[j].name == db'.users[id].name;
    }
    UnclashedUpdateCommits(st, req, id, form, None, AgainstStripped);
  }

  /** With no clash, `user()` commits the overwritten record. */
  lemma UnclashedUpdateCommits(st: State, req: Request, id: nat, form: ProfileForm, face: Option<string>, cmp: Comparison)
    requires Valid(st.db) && Editing(st, req, true, id)
    requires !NickClash(cmp, st.db.users, id, form) && !EmailClash(cmp, st.db.users, id, form)
    requires !PhoneClash(cmp, st.db.users, id, form)
    ensures UserUpdateWith(st, req, form, face, true, cmp)
              == Commit(st, st.db.(users := st.db.users[id := Overwritten(st.db.users[id], form, face)]), st.session, Redirect(UserPage))
  {
  }

  /** A member whose stored name ends in whitespace cannot save the profile
      unchanged: the stripped submission differs from the stored name, and
      the unstripped count finds the member itself. */
  lemma UserUpdateAsWrittenRejectsOwnName(st: State, req: Request, id: nat, core: string, pad: string, info: string)
    requires Valid(st.db) && Editing(st, req, true, id)
    requires st.db.users[id].name == core + pad
    requires Trimmed(core) && core != [] && AllSpace(pad) && pad != []
    ensures var u := st.db.users[id];
            UserUpdateAsWritten(st, req, ProfileForm(u.name, u.email, u.phone, info), None, true)
              == Step(st, Rejected(NickTaken, UserPage))
  {
    var u := st.db.users[id];
    StripOfPadded([], core, pad);
    assert [] + core + pad == core + pad;
    assert UserNameTaken(st.db.users, u.name);
    assert NickClash(AgainstStripped, st.db.users, id, ProfileForm(u.name, u.email, u.phone, info));
  }

  /** A concrete instance: members "bob" (id 1) and " bob" (id 2); member 1
      resubmits the profile with the name " bob" and the commit fails. */
  lemma UserUpdateAsWrittenDuplicateExample()
    ensures var db := Db(map[1 := User("bob", "h1", "b@x", "1", None, None, 0, "u1"),
                             2 := User(" bob", "h2", "c@x", "2", None, None, 0, "u2")],
                         [], map[], 0, map[], map[], map[]);
            var st := State(db, map[UserKey := Str("bob"), UserIdKey := Num(1)]);
            Valid(db) &&
            UserUpdateAsWritten(st, Request(Post, "/user/", None, "", 1), ProfileForm(" bob", "b@x", "1", ""), None, true)
              == Step(st, Failed(IntegrityError))
  {
    var db := Db(map[1 := User("bob", "h1", "b@x", "1", None, None, 0, "u1"),
                     2 := User(" bob", "h2", "c@x", "2", None, None, 0, "u2")],
                 [], map[], 0, map[], map[], map[]);
    var st := State(db, map[UserKey := Str("bob"), UserIdKey := Num(1)]);
    var req := Request(Post, "/user/", None, "", 1);
    assert Valid(db);
    assert Trimmed("bob") && Trimmed("b@x") && Trimmed("1") && AllSpace(" ");
    assert " " + "bob" == " bob";
    assert Editing(st, req, true, 1);
    UserUpdateAsWrittenLetsDuplicateThrough(st, req, 1, 2, " ", "");
  }

  /** `user()` with each comparison made on the value that is counted and
      stored: a change is rejected exactly when another member holds the
      value, and with a fresh avatar name the commit never fails. */
  function UserUpdate(st: State, req: Request, form: ProfileForm, face: Option<string>, formValid: bool): (r: Step)
    requires Valid(st.db)
    ensures forall id :: Editing(st, req, formValid, id) ==>
              && (r.outcome == Rejected(NickTaken, UserPage) <==> UserNameTaken(st.db.users, form.name) && st.db.users[id].name != form.name)
              && (r.outcome == Rejected(EmailInUse, UserPage) <==>
                    !(UserNameTaken(st.db.users, form.name) && st.db.users[id].name != form.name)
                    && EmailTaken(st.db.users, form.email) && st.db.users[id].email != form.email)
              && (r.outcome == Rejected(PhoneInUse, UserPage) <==>
                    !(UserNameTaken(st.db.users, form.name) && st.db.users[id].name != form.name)
                    && !(EmailTaken(st.db.users, form.email) && st.db.users[id].email != form.email)
                    && PhoneTaken(st.db.users, form.phone) && st.db.users[id].phone != form.phone)
              && (FreeFor(st.db.users, id, form, face) ==> r.outcome == Redirect(UserPage))
  {
    var r := UserUpdateWith(st, req, form, face, formValid, AgainstSubmitted);
    UserUpdateFreeCommits(st, req, form, face, formValid);
    r
  }

  lemma UserUpdateFreeCommits(st: State, req: Request, form: ProfileForm, face: Option<string>, formValid: bool)
    requires Valid(st.db)
    ensures forall id :: Editing(st, req, formValid, id) && FreeFor(st.db.users, id, form, face) ==>
              UserUpdateWith(st, req, form, face, formValid, AgainstSubmitted).outcome == Redirect(UserPage)
  {
    forall id | Editing(st, req, formValid, id) && FreeFor(st.db.users, id, form, face)
      ensures UserUpdateWith(st, req, form, face, formValid, AgainstSubmitted).outcome == Redirect(UserPage)
    {
      var users := st.db.users;
      var u := users[id];
      assert !NickClash(AgainstSubmitted, users, id, form);
      assert !EmailClash(AgainstSubmitted, users, id, form);
      assert !PhoneClash(AgainstSubmitted, users, id, form);
      var u' := Overwritten(u, form, face);
      assert forall j :: j in users && j != id ==> u'.face.None? || users[j].face != u'.face by {
        if face.None? {
          forall j | j in users && j != id && u'.face.Some?
            ensures users[j].face != u'.face
          {
            assert u'.face == u.face;
          }
        }
      }
      UpdateUserKeepsValid(st.db, id, u');
    }
  }

  // ---- the password change ----

  /** `db'` is `db` with member `id`'s hash replaced by `h`, and nothing else changed. */
  predicate PasswordSet(db: Db, db': Db, id: nat, h: Hash)
  {
    && id in db.users
    && db'.users == db.users[id := db.users[id].(pwd := h)]
    && db' == db.(users := db'.users)
  }

  /** `pwd()` as written: the member is looked up by the NAME in
      session["user"], which `user()` never refreshes. A missing key raises;
      a name no member holds leaves the lookup None and raises; otherwise
      whichever member now holds that name gets the new hash `newHash`. */
  function PwdAsWritten(st: State, req: Request, formValid: bool, newHash: Hash): (r: Step)
    requires Valid(st.db)
    ensures Valid(r.state.db) && r.state.session == st.session
    ensures !(req.verb == Post && formValid) ==> r == Step(st, Rendered(PwdPage))
    ensures !r.outcome.Redirect? ==> r.state == st
    ensures req.verb == Post && formValid && UserKey !in st.session ==> r.outcome == Failed(MissingSessionKey)
    ensures req.verb == Post && formValid && UserKey in st.session
            && (forall i :: i in st.db.users ==> st.session[UserKey] != Str(st.db.users[i].name)) ==>
              r.outcome == Failed(NoneRecord)
    ensures forall id :: (req.verb == Post && formValid && id in st.db.users
                          && UserKey in st.session && st.session[UserKey] == Str(st.db.users[id].name)) ==>
              r.outcome == Redirect(HomeLogout) && PasswordSet(st.db, r.state.db, id, newHash)
    ensures r.outcome.Redirect? ==> exists id :: PasswordSet(st.db, r.state.db, id, newHash)
  {
    if req.verb != Post || !formValid then
      Step(st, Rendered(PwdPage))
    else if UserKey !in st.session then
      Step(st, Failed(MissingSessionKey))
    else
      var found := match st.session[UserKey]
                   case Str(name) => FindUserByName(st.db.users, name)
                   case _ => None;
      match found
      case None => Step(st, Failed(NoneRecord))
      case Some(id) => SetPassword(st, id, newHash)
  }

  /** Stores a new hash for member `id` and sends the client to sign out. */
  function SetPassword(st: State, id: nat, newHash: Hash): (r: Step)
    requires Valid(st.db) && id in st.db.users
    ensures Valid(r.state.db) && r.state.session == st.session
    ensures r.outcome == Redirect(HomeLogout) && PasswordSet(st.db, r.state.db, id, newHash)
  {
    var db' := st.db.(users := st.db.users[id := st.db.users[id].(pwd := newHash)]);
    UpdateUserKeepsValid(st.db, id, st.db.users[id].(pwd := newHash));
    Commit(st, db', st.session, Redirect(HomeLogout))
  }

  /** Once the session's name belongs to another member than its id, the
      password change rewrites that other member's hash and leaves the
      signed-in member's own hash as it was. */
  lemma PwdAsWrittenHitsOtherMember(st: State, req: Request, newHash: Hash, me: nat, other: nat)
    requires Valid(st.db) && req.verb == Post
    requires me in st.db.users && other in st.db.users && me != other
    requires UserIdKey in st.session && st.session[UserIdKey] == Num(me)
    requires UserKey in st.session && st.session[UserKey] == Str(st.db.users[other].name)
    ensures var r := PwdAsWritten(st, req, true, newHash);
            && r.outcome == Redirect(HomeLogout)
            && r.state.db.users[other].pwd == newHash
            && r.state.db.users[me] == st.db.users[me]
  {
  }

  /** `pwd()` with the member looked up by session["user_id"], as `user()`
      does: the new hash always lands on the signed-in member's own record. */
  function Pwd(st: State, req: Request, formValid: bool, newHash: Hash): (r: Step)
    requires Valid(st.db)
    ensures Valid(r.state.db) && r.state.session == st.session
    ensures !(req.verb == Post && formValid) ==> r == Step(st, Rendered(PwdPage))
    ensures !r.outcome.Redirect? ==> r.state == st
    ensures req.verb == Post && formValid && UserIdKey !in st.session ==> r.outcome == Failed(MissingSessionKey)
    ensures forall id :: Editing(st, req, formValid, id) ==>
              r.outcome == Redirect(HomeLogout) && PasswordSet(st.db, r.state.db, id, newHash)
    ensures r.outcome.Redirect? ==> exists id :: Editing(st, req, formValid, id)
  {
    if req.verb != Post || !formValid then
      Step(st, Rendered(PwdPage))
    else if UserIdKey !in st.session then
      Step(st, Failed(MissingSessionKey))
    else if !st.session[UserIdKey].Num? || st.session[UserIdKey].n < 0 || st.session[UserIdKey].n !in st.db.users then
      Step(st, NotFound)
    else
      var id: nat := st.session[UserIdKey].n;
      assert Editing(st, req, formValid, id);
      SetPassword(st, id, newHash)
  }

  // ---- the stale session name ----

  /** `user()` as written: a member whose stored email and phone carry no
      surrounding whitespace renames itself to a trimmed name nobody else
      holds, resubmitting its email and phone and uploading no avatar. The
      commit succeeds, only that member's name and info change, and the
      session is left as it was. */
  lemma RenameCommits(st: State, req: Request, id: nat, name: string, info: string)
    requires Valid(st.db) && Editing(st, req, true, id)
    requires Trimmed(name) && Trimmed(st.db.users[id].email) && Trimmed(st.db.users[id].phone)
    requires forall j :: j in st.db.users && j != id ==> st.db.users[j].name != name
    ensures var u := st.db.users[id];
            var r := UserUpdateAsWritten(st, req, ProfileForm(name, u.email, u.phone, info), None, true);
            && r.outcome == Redirect(UserPage)
            && Valid(r.state.db) && r.state.session == st.session
            && r.state.db.users.Keys == st.db.users.Keys
            && r.state.db.users[id] == u.(name := name, info := Some(info))
            && (forall j :: j in st.db.users && j != id ==> r.state.db.users[j] == st.db.users[j])
  {
    var u := st.db.users[id];
    var form := ProfileForm(name, u.email, u.phone, info);
    assert !NickClash(AgainstStripped, st.db.users, id, form)
        && !EmailClash(AgainstStripped, st.db.users, id, form)
        && !PhoneClash(AgainstStripped, st.db.users, id, form) by {
      TrimmedIsFixedPoint(name);
      TrimmedIsFixedPoint(u.email);
      TrimmedIsFixedPoint(u.phone);
    }
    UnclashedUpdateCommits(st, req, id, form, None, AgainstStripped);
    var u' := Overwritten(u, form, None);
    assert u' == u.(name := name, info := Some(info));
    UpdateUserKeepsValid(st.db, id, u');
  }

  /** The password change reaches the wrong member in three ordinary steps:
      member `me` (signed in as `a`) renames itself to `b`; member `other`
      renames itself to `a`; `me` then changes its password, and the hash
      lands on `other` while `me` keeps its old one. */
  lemma StaleSessionRedirectsPasswordChange(db: Db, req: Request, me: nat, other: nat, b: string,
                                            info1: string, info2: string, newHash: Hash)
    requires Valid(db) && req.verb == Post
    requires me in db.users && other in db.users && me != other
    requires db.users[me].name != b && !UserNameTaken(db.users, b)
    requires Trimmed(b) && Trimmed(db.users[me].name)
    requires Trimmed(db.users[me].email) && Trimmed(db.users[me].phone)
    requires Trimmed(db.users[other].email) && Trimmed(db.users[other].phone)
    ensures var u1, u2 := db.users[me], db.users[other];
            var sMe := map[UserKey := Str(u1.name), UserIdKey := Num(me)];
            var sOther := map[UserKey := Str(u2.name), UserIdKey := Num(other)];
            var r1 := UserUpdateAsWritten(State(db, sMe), req, ProfileForm(b, u1.email, u1.phone, info1), None, true);
            var r2 := UserUpdateAsWritten(State(r1.state.db, sOther), req, ProfileForm(u1.name, u2.email, u2.phone, info2), None, true);
            var r3 := PwdAsWritten(State(r2.state.db, sMe), req, true, newHash);
            && r1.outcome == Redirect(UserPage) && r2.outcome == Redirect(UserPage)
            && r3.outcome == Redirect(HomeLogout)
            && r3.state.db.users[other].pwd == newHash
            && r3.state.db.users[me].pwd == u1.pwd
  {
    var u1, u2 := db.users[me], db.users[other];
    var sMe := map[UserKey := Str(u1.name), UserIdKey := Num(me)];
    var sOther := map[UserKey := Str(u2.name), UserIdKey := Num(other)];
    var db1 := FirstRename(db, req, me, b, info1);
    var db2 := SecondRename(db, db1, req, me, other, b, info2);
    PwdAsWrittenHitsOtherMember(State(db2, sMe), req, newHash, me, other);
  }

  /** The first request of the scenario: `me` renames itself to `b`. */
  lemma FirstRename(db: Db, req: Request, me: nat, b: string, info1: string) returns (db1: Db)
    requires Valid(db) && req.verb == Post && me in db.users
    requires !UserNameTaken(db.users, b)
    requires Trimmed(b) && Trimmed(db.users[me].email) && Trimmed(db.users[me].phone)
    ensures var u1 := db.users[me];
            var r1 := UserUpdateAsWritten(State(db, map[UserKey := Str(u1.name), UserIdKey := Num(me)]), req,
                                          ProfileForm(b, u1.email, u1.phone, info1), None, true);
            r1.outcome == Redirect(UserPage) && r1.state.db == db1
    ensures Valid(db1) && db1.users.Keys == db.users.Keys
    ensures db1.users[me] == db.users[me].(name := b, info := Some(info1))
    ensures forall j :: j in db.users && j != me ==> db1.users[j] == db.users[j]
  {
    var u1 := db.users[me];
    var st := State(db, map[UserKey := Str(u1.name), UserIdKey := Num(me)]);
    assert Editing(st, req, true, me);
    RenameCommits(st, req, me, b, info1);
    db1 := UserUpdateAsWritten(st, req, ProfileForm(b, u1.email, u1.phone, info1), None, true).state.db;
  }

  /** The second request of the scenario: `other` takes the name `me` had. */
  lemma SecondRename(db: Db, db1: Db, req: Request, me: nat, other: nat, b: string, info2: string) returns (db2: Db)
    requires Valid(db) && Valid(db1) && req.verb == Post
    requires me in db.users && other in db.users && me != other && db.users[me].name != b
    requires db1.users.Keys == db.users.Keys
    requires db1.users[me].name == b && db1.users[me].pwd == db.users[me].pwd
    requires forall j :: j in db.users && j != me ==> db1.users[j] == db.users[j]
    requires Trimmed(db.users[me].name) && Trimmed(db.users[other].email) && Trimmed(db.users[other].phone)
    ensures var u2 := db.users[other];
            var r2 := UserUpdateAsWritten(State(db1, map[UserKey := Str(u2.name), UserIdKey := Num(other)]), req,
                                          ProfileForm(db.users[me].name, u2.email, u2.phone, info2), None, true);
            r2.outcome == Redirect(UserPage) && r2.state.db == db2
    ensures Valid(db2) && me in db2.users && other in db2.users
    ensures db2.users[other].name == db.users[me].name && db2.users[me].pwd == db.users[me].pwd
  {
    var a := db.users[me].name;
    var u2 := db.users[other];
    var st := State(db1, map[UserKey := Str(u2.name), UserIdKey := Num(other)]);
    assert db1.users[other] == u2;
    assert Editing(st, req, true, other);
    forall j | j in db1.users && j != other
      ensures db1.users[j].name != a
    {
      if j != me {
        assert db1.users[j] == db.users[j];
      }
    }
    RenameCommits(st, req, other, a, info2);
    db2 := UserUpdateAsWritten(st, req, ProfileForm(a, u2.email, u2.phone, info2), None, true).state.db;
  }

  // ---- routing ----

  /** The member routes this model covers, with their submitted data. */
  datatype Route =
    | IndexRoute
    | LoginRoute(form: LoginForm, formValid: bool)
    | LogoutRoute
    | ProfileRoute(profile: ProfileForm, face: Option<string>, formValid: bool)
    | PwdRoute(formValid: bool, newHash: Hash)

  /** The profile and password pages are wrapped in `user_login`. */
  predicate Gated(route: Route)
  {
    route.ProfileRoute? || route.PwdRoute?
  }

  /** The `methods=` list of each route. */
  function MethodsOf(route: Route): Methods
  {
    match route
    case IndexRoute => GetOnly
    case LogoutRoute => GetOnly
    case _ => GetAndPost
  }

  /** The view function of a route, undecorated. `rev` chooses between
      `user()` and `pwd()` as written and their corrected versions. */
  function View(st: State, req: Request, route: Route, verify: Verifier, rev: Revision): Step
    requires Valid(st.db)
  {
    match route
    case IndexRoute => Step(st, Rendered(HomeIndexPage))
    case LoginRoute(form, formValid) => Login(st, req, form, formValid, verify)
    case LogoutRoute => Logout(st)
    case ProfileRoute(form, face, formValid) =>
      if rev == AsWritten then UserUpdateAsWritten(st, req, form, face, formValid) else UserUpdate(st, req, form, face, formValid)
    case PwdRoute(formValid, newHash) =>
      if rev == AsWritten then PwdAsWritten(st, req, formValid, newHash) else Pwd(st, req, formValid, newHash)
  }

  /** `r` leaves the tag, administrator, role and permission tables and every
      session key outside the member namespace as they were in `st`, and its
      database is valid. */
  predicate MemberFrame(st: State, r: Step)
  {
    && Valid(r.state.db)
    && r.state.db == st.db.(users := r.state.db.users, userLogs := r.state.db.userLogs)
    && OnlyMemberKeysChange(st.session, r.state.session)
  }

  lemma LoginFrame(st: State, req: Request, form: LoginForm, formValid: bool, verify: Verifier)
    requires Valid(st.db)
    ensures MemberFrame(st, Login(st, req, form, formValid, verify))
  {
    var r := Login(st, req, form, formValid, verify);
    if r.outcome.Redirect? {
      var id :| SignedInAs(st, r.state, req, id) && st.db.users[id].name == Strip(form.name);
      MemberKeysOnly(st.session, Str(st.db.users[id].name), Num(id));
    }
  }

  /** Writing the two member keys keeps every other key. */
  lemma MemberKeysOnly(s: Session, name: Value, id: Value)
    ensures OnlyMemberKeysChange(s, s[UserKey := name][UserIdKey := id])
  {
  }

  lemma ProfileFrame(st: State, req: Request, form: ProfileForm, face: Option<string>, formValid: bool, cmp: Comparison)
    requires Valid(st.db)
    ensures MemberFrame(st, UserUpdateWith(st, req, form, face, formValid, cmp))
  {
    var r := UserUpdateWith(st, req, form, face, formValid, cmp);
    if r.outcome.Redirect? {
      var id :| Editing(st, req, formValid, id) && ProfileWritten(st.db, r.state.db, id, form, face);
    }
  }

  lemma PwdFrame(st: State, req: Request, formValid: bool, newHash: Hash)
    requires Valid(st.db)
    ensures MemberFrame(st, Pwd(st, req, formValid, newHash))
  {
    var r := Pwd(st, req, formValid, newHash);
    if r.outcome.Redirect? {
      var id :| Editing(st, req, formValid, id);
    }
  }

  lemma PwdAsWrittenFrame(st: State, req: Request, formValid: bool, newHash: Hash)
    requires Valid(st.db)
    ensures MemberFrame(st, PwdAsWritten(st, req, formValid, newHash))
  {
    var r := PwdAsWritten(st, req, formValid, newHash);
    if r.outcome.Redirect? {
      var id :| PasswordSet(st.db, r.state.db, id, newHash);
    }
  }

  /** No member view touches the tag, administrator, role or permission
      tables or any session key outside the member namespace, and the
      database stays valid. */
  lemma ViewFrame(st: State, req: Request, route: Route, verify: Verifier, rev: Revision)
    requires Valid(st.db)
    ensures MemberFrame(st, View(st, req, route, verify, rev))
  {
    match route
    case IndexRoute =>
    case LoginRoute(form, formValid) => LoginFrame(st, req, form, formValid, verify);
    case LogoutRoute =>
    case ProfileRoute(form, face, formValid) =>
      var cmp := if rev == AsWritten then AgainstStripped else AgainstSubmitted;
      ProfileFrame(st, req, form, face, formValid, cmp);
      assert View(st, req, route, verify, rev) == UserUpdateWith(st, req, form, face, formValid, cmp);
    case PwdRoute(formValid, newHash) =>
      if rev == AsWritten {
        PwdAsWrittenFrame(st, req, formValid, newHash);
      } else {
        PwdFrame(st, req, formValid, newHash);
      }
  }

  /** A request to the member blueprint: Flask's method check, the gate,
      then the view. */
  function Dispatch(st: State, req: Request, route: Route, verify: Verifier, rev: Revision): (r: Step)
    requires Valid(st.db)
    ensures Valid(r.state.db)
    ensures r.state.db == st.db.(users := r.state.db.users, userLogs := r.state.db.userLogs)
    ensures OnlyMemberKeysChange(st.session, r.state.session)
    ensures r.outcome == MethodNotAllowed ==> r.state == st
  {
    if !Accepts(MethodsOf(route), req.verb) then
      Step(st, MethodNotAllowed)
    else
      var inner := View(st, req, route, verify, rev);
      ViewFrame(st, req, route, verify, rev);
      if Gated(route) then Gate(st, req.url, inner) else inner
  }

  /** A POST to the index or to sign-out is answered with 405 before the
      view runs, so it signs nobody out. */
  lemma WrongMethodChangesNothing(st: State, req: Request, route: Route, verify: Verifier, rev: Revision)
    requires Valid(st.db)
    ensures Dispatch(st, req, route, verify, rev).outcome == MethodNotAllowed <==> !Accepts(MethodsOf(route), req.verb)
    ensures req.verb == Post && (route.IndexRoute? || route.LogoutRoute?) ==>
              Dispatch(st, req, route, verify, rev) == Step(st, MethodNotAllowed)
  {
    if Accepts(MethodsOf(route), req.verb) {
      ViewNeverRefusesMethod(st, req, route, verify, rev);
    }
  }

  /** A HEAD request does exactly what the same GET does: the view runs,
      so a HEAD to a GET-only route with an effect has that effect. */
  lemma HeadRunsAsGet(st: State, req: Request, route: Route, verify: Verifier, rev: Revision)
    requires Valid(st.db) && req.verb == Head
    ensures Dispatch(st, req, route, verify, rev) == Dispatch(st, req.(verb := Get), route, verify, rev)
  {
  }

  /** Only the method check answers 405; no view does. */
  lemma ViewNeverRefusesMethod(st: State, req: Request, route: Route, verify: Verifier, rev: Revision)
    requires Valid(st.db)
    ensures View(st, req, route, verify, rev).outcome != MethodNotAllowed
  {
    var inner := View(st, req, route, verify, rev);
    match route
    case LoginRoute(form, formValid) =>
    case ProfileRoute(form, face, formValid) =>
      var cmp := if rev == AsWritten then AgainstStripped else AgainstSubmitted;
      assert inner == UserUpdateWith(st, req, form, face, formValid, cmp);
    case PwdRoute(formValid, newHash) =>
    case _ =>
  }

  /** Signed out as a member, every gated route answers an accepted verb
      with a redirect to the member login page carrying the requested URL,
      and changes nothing, whether or not an administrator is signed in on
      the same client. */
  lemma GateStopsSignedOut(st: State, req: Request, route: Route, verify: Verifier, rev: Revision)
    requires Valid(st.db) && Gated(route) && !UserSignedIn(st.session)
    ensures Dispatch(st, req, route, verify, rev)
              == Step(st, if Accepts(MethodsOf(route), req.verb) then Redirect(HomeLogin(Some(req.url))) else MethodNotAllowed)
  {
  }

  /** Signed in as a member, an accepted verb reaches the wrapped view unchanged. */
  lemma GatePassesSignedIn(st: State, req: Request, route: Route, verify: Verifier, rev: Revision)
    requires Valid(st.db) && UserSignedIn(st.session)
    ensures Dispatch(st, req, route, verify, rev)
              == if Accepts(MethodsOf(route), req.verb) then View(st, req, route, verify, rev) else Step(st, MethodNotAllowed)
  {
  }
}

=== FILE: models.dfy ===
/** The persistent tables of app/models.py that the views read or write,
    and the role and auth tables kept for their constraints, with the UNIQUE
    and FOREIGN KEY constraints the database enforces on them.
    Primary keys are the map keys; `add_time` defaults are the request's
    clock reading, passed in by the caller. */
module Models {
  import opened Options

  /** A stored werkzeug password hash. The model never looks inside it. */
  type Hash = string

  /** `check_password_hash(stored, candidate)`: a pure yes/no answer whose
      algorithm is not modelled, so every operation takes it as a parameter. */
  type Verifier = (Hash, string) -> bool

  datatype User = User(
    name: string,          // unique
    pwd: Hash,
    email: string,         // unique
    phone: string,         // unique
    info: Option<string>,
    face: Option<string>,  // unique when present (NULLs never collide)
    addTime: int,
    uuid: string)          // unique

  datatype UserLog = UserLog(userId: nat, ip: string, addTime: int)

  datatype Tag = Tag(name: string, addTime: int)

  datatype Auth = Auth(name: string, url: string, addTime: int)

  /** `auths` is the free-text permission list column; nothing reads it. */
  datatype Role = Role(name: string, auths: string, addTime: int)

  /** An administrator refers to at most one role through `roleId`. */
  datatype Admin = Admin(name: string, pwd: Hash, isSuper: int, roleId: Option<nat>, addTime: int)

  /** The database. `nextTagId` is the tag table's auto-increment counter. */
  datatype Db = Db(
    users: map<nat, User>,
    userLogs: seq<UserLog>,
    tags: map<nat, Tag>,
    nextTagId: nat,
    auths: map<nat, Auth>,
    roles: map<nat, Role>,
    admins: map<nat, Admin>)

  // ---- UNIQUE constraints ----

  predicate UniqueTagNames(tags: map<nat, Tag>)
  {
    forall i, j :: i in tags && j in tags && tags[i].name == tags[j].name ==> i == j
  }

  predicate UniqueUserNames(users: map<nat, User>)
  {
    forall i, j :: i in users && j in users && users[i].name == users[j].name ==> i == j
  }

  predicate UniqueUserEmails(users: map<nat, User>)
  {
    forall i, j :: i in users && j in users && users[i].email == users[j].email ==> i == j
  }

  predicate UniqueUserPhones(users: map<nat, User>)
  {
    forall i, j :: i in users && j in users && users[i].phone == users[j].phone ==> i == j
  }

  predicate UniqueUserFaces(users: map<nat, User>)
  {
    forall i, j :: i in users && j in users && users[i].face.Some? && users[i].face == users[j].face ==> i == j
  }

  predicate UniqueUserUuids(users: map<nat, User>)
  {
    forall i, j :: i in users && j in users && users[i].uuid == users[j].uuid ==> i == j
  }

  predicate UniqueUserColumns(users: map<nat, User>)
  {
    && UniqueUserNames(users)
    && UniqueUserEmails(users)
    && UniqueUserPhones(users)
    && UniqueUserFaces(users)
    && UniqueUserUuids(users)
  }

  predicate UniqueAdminNames(admins: map<nat, Admin>)
  {
    forall i, j :: i in admins && j in admins && admins[i].name == admins[j].name ==> i == j
  }

  predicate UniqueRoleNames(roles: map<nat, Role>)
  {
    forall i, j :: i in roles && j in roles && roles[i].name == roles[j].name ==> i == j
  }

  predicate UniqueAuthColumns(auths: map<nat, Auth>)
  {
    && (forall i, j :: i in auths && j in auths && auths[i].name == auths[j].name ==> i == j)
    && (forall i, j :: i in auths && j in auths && auths[i].url == auths[j].url ==> i == j)
  }

  // ---- FOREIGN KEY constraints and the id counter ----

  predicate AdminRolesExist(db: Db)
  {
    forall i :: i in db.admins && db.admins[i].roleId.Some? ==> db.admins[i].roleId.value in db.roles
  }

  predicate LogUsersExist(db: Db)
  {
    forall k :: 0 <= k < |db.userLogs| ==> db.userLogs[k].userId in db.users
  }

  predicate TagIdsIssued(db: Db)
  {
    forall i :: i in db.tags ==> i < db.nextTagId
  }

  /** Every state the database can commit. */
  predicate Valid(db: Db)
  {
    && UniqueTagNames(db.tags)
    && UniqueUserColumns(db.users)
    && UniqueAdminNames(db.admins)
    && UniqueRoleNames(db.roles)
    && UniqueAuthColumns(db.auths)
    && AdminRolesExist(db)
    && LogUsersExist(db)
    && TagIdsIssued(db)
  }

  // ---- lookups by unique column (`filter_by(...).count()` and `.first()`) ----

  predicate TagNameTaken(tags: map<nat, Tag>, name: string)
  {
    exists i :: i in tags && tags[i].name == name
  }

  predicate UserNameTaken(users: map<nat, User>, name: string)
  {
    exists i :: i in users && users[i].name == name
  }

  predicate EmailTaken(users: map<nat, User>, email: string)
  {
    exists i :: i in users && users[i].email == email
  }

  predicate PhoneTaken(users: map<nat, User>, phone: string)
  {
    exists i :: i in users && users[i].phone == phone
  }

  predicate AdminNameTaken(admins: map<nat, Admin>, name: string)
  {
    exists i :: i in admins && admins[i].name == name
  }

  /** `User.query.filter_by(name=name).first()`. */
  function FindUserByName(users: map<nat, User>, name: string): (r: Option<nat>)
    requires UniqueUserNames(users)
    ensures r.Some? <==> UserNameTaken(users, name)
    ensures r.Some? ==> r.value in users && users[r.value].name == name
  {
    if UserNameTaken(users, name) then
      var i :| i in users && users[i].name == name;
      Some(i)
    else
      None
  }

  /** `Admin.query.filter_by(name=name).first()`. */
  function FindAdminByName(admins: map<nat, Admin>, name: string): (r: Option<nat>)
    requires UniqueAdminNames(admins)
    ensures r.Some? <==> AdminNameTaken(admins, name)
    ensures r.Some? ==> r.value in admins && admins[r.value].name == name
  {
    if AdminNameTaken(admins, name) then
      var i :| i in admins && admins[i].name == name;
      Some(i)
    else
      None
  }

  /** Because user names are unique, looking a user up by its own name finds
      that user again: the name column is a key. */
  lemma UserNameIsKey(users: map<nat, User>, id: nat)
    requires UniqueUserNames(users) && id in users
    ensures FindUserByName(users, users[id].name) == Some(id)
  {
  }

  /** Likewise for administrators, which the session-name lookup of the
      old-password check depends on. */
  lemma AdminNameIsKey(admins: map<nat, Admin>, id: nat)
    requires UniqueAdminNames(admins) && id in admins
    ensures FindAdminByName(admins, admins[id].name) == Some(id)
  {
  }

  /** The single role an administrator belongs to, if any: in a valid
      database every set `role_id` resolves to a stored role. */
  function RoleOf(db: Db, adminId: nat): (r: Option<Role>)
    requires Valid(db) && adminId in db.admins
    ensures r.Some? <==> db.admins[adminId].roleId.Some?
    ensures db.admins[adminId].roleId.Some? ==>
              db.admins[adminId].roleId.value in db.roles && r == Some(db.roles[db.admins[adminId].roleId.value])
  {
    match db.admins[adminId].roleId
    case None => None
    case Some(k) => Some(db.roles[k])
  }

  // ---- editing the tag and user tables ----

  /** Removing a tag never breaks a constraint. */
  lemma RemoveTagKeepsValid(db: Db, id: nat)
    requires Valid(db)
    ensures Valid(db.(tags := db.tags - {id}))
  {
  }

  /** Adding a tag under a fresh id with a name no tag holds keeps the
      database valid, and afterwards exactly one tag carries that name. */
  lemma InsertTagKeepsValid(db: Db, t: Tag)
    requires Valid(db) && !TagNameTaken(db.tags, t.name)
    ensures db.nextTagId !in db.tags
    ensures var db' := db.(tags := db.tags[db.nextTagId := t], nextTagId := db.nextTagId + 1);
            Valid(db') && (forall i :: i in db'.tags && db'.tags[i].name == t.name ==> i == db.nextTagId)
  {
  }

  /** Renaming a tag to a name no other tag holds keeps the database valid. */
  lemma RenameTagKeepsValid(db: Db, id: nat, name: string)
    requires Valid(db) && id in db.tags
    requires forall j :: j in db.tags && j != id ==> db.tags[j].name != name
    ensures Valid(db.(tags := db.tags[id := db.tags[id].(name := name)]))
  {
  }

  /** Replacing a user's record keeps the database valid when the new name,
      email, phone and avatar belong to no other user and the uuid is kept. */
  lemma UpdateUserKeepsValid(db: Db, id: nat, u: User)
    requires Valid(db) && id in db.users && u.uuid == db.users[id].uuid
    requires forall j :: j in db.users && j != id ==>
               && db.users[j].name != u.name
               && db.users[j].email != u.email
               && db.users[j].phone != u.phone
               && (u.face.None? || db.users[j].face != u.face)
    ensures Valid(db.(users := db.users[id := u]))
  {
    var users := db.users[id := u];
    assert UniqueUserNames(users);
    assert UniqueUserEmails(users);
    assert UniqueUserPhones(users);
    assert UniqueUserFaces(users);
    assert UniqueUserUuids(users);
  }

  /** Appending a login record for an existing user keeps the database valid. */
  lemma AppendLogKeepsValid(db: Db, e: UserLog)
    requires Valid(db) && e.userId in db.users
    ensures Valid(db.(userLogs := db.userLogs + [e]))
  {
    var db' := db.(userLogs := db.userLogs + [e]);
    assert forall k :: 0 <= k < |db'.userLogs| ==> db'.userLogs[k] == if k < |db.userLogs| then db.userLogs[k] else e;
  }
}

=== FILE: site.dfy ===
/** Both blueprints served from one application over one database, with one
    session per client holding the administrator key and the member keys
    side by side. */
module Site {
  import opened Models
  import opened Options
  import opened Web
  import AdminViews
  import HomeViews

  /** A request to either blueprint. */
  datatype Route = ToAdmin(a: AdminViews.Route) | ToHome(h: HomeViews.Route)

  /** One request, handled by the blueprint it is addressed to, under
      revision `rev` of the handlers. Each blueprint writes only its own
      tables and its own session keys. */
  function Serve(st: State, req: Request, route: Route, verify: Verifier, rev: Revision): (r: Step)
    requires Valid(st.db)
    ensures Valid(r.state.db)
    ensures route.ToAdmin? ==> r.state.db.users == st.db.users && r.state.db.userLogs == st.db.userLogs
    ensures route.ToHome? ==> r.state.db.tags == st.db.tags
    ensures r.state.db.roles == st.db.roles && r.state.db.auths == st.db.auths && r.state.db.admins == st.db.admins
  {
    match route
    case ToAdmin(a) => AdminViews.Dispatch(st, req, a, verify, rev)
    case ToHome(h) => HomeViews.Dispatch(st, req, h, verify, rev)
  }

  /** The two namespaces do not interfere: an administrator request,
      sign-out included, leaves the member sign-in exactly as it was. */
  lemma AdminRequestKeepsMember(st: State, req: Request, route: AdminViews.Route, verify: Verifier, rev: Revision)
    requires Valid(st.db)
    ensures var s, s' := st.session, Serve(st, req, ToAdmin(route), verify, rev).state.session;
            && (UserSignedIn(s') <==> UserSignedIn(s))
            && (UserKey in s ==> UserKey in s' && s'[UserKey] == s[UserKey])
            && (UserIdKey in s ==> UserIdKey in s' && s'[UserIdKey] == s[UserIdKey])
  {
    var s' := AdminViews.Dispatch(st, req, route, verify, rev).state.session;
    assert UserKey != AdminKey && UserIdKey != AdminKey by {
      assert UserKey[0] != AdminKey[0] && UserIdKey[0] != AdminKey[0];
    }
    assert AdminViews.SameExcept(st.session, s', AdminKey);
    if UserKey in s' {
      assert UserKey in s'.Keys - {AdminKey};
    }
  }

  /** Likewise a member request, sign-out included, leaves the
      administrator sign-in exactly as it was. */
  lemma MemberRequestKeepsAdmin(st: State, req: Request, route: HomeViews.Route, verify: Verifier, rev: Revision)
    requires Valid(st.db)
    ensures var s, s' := st.session, Serve(st, req, ToHome(route), verify, rev).state.session;
            && (AdminSignedIn(s') <==> AdminSignedIn(s))
            && (AdminKey in s ==> AdminKey in s' && s'[AdminKey] == s[AdminKey])
  {
    var s' := HomeViews.Dispatch(st, req, route, verify, rev).state.session;
    assert UserKey != AdminKey && UserIdKey != AdminKey by {
      assert UserKey[0] != AdminKey[0] && UserIdKey[0] != AdminKey[0];
    }
    assert HomeViews.OnlyMemberKeysChange(st.session, s');
    if AdminKey in s' {
      assert AdminKey in s'.Keys - {UserKey, UserIdKey};
    }
  }

  /** A member sign-in opens no administrator page: a client whose session
      holds only member keys is turned away from every gated admin route. */
  lemma MemberSessionOpensNoAdminPage(st: State, req: Request, route: AdminViews.Route, verify: Verifier, rev: Revision)
    requires Valid(st.db) && AdminViews.Gated(route)
    requires st.session.Keys <= {UserKey, UserIdKey}
    ensures Serve(st, req, ToAdmin(route), verify, rev)
              == Step(st, if Accepts(AdminViews.MethodsOf(route), req.verb) then Redirect(AdminLogin(Some(req.url))) else MethodNotAllowed)
  {
    assert AdminKey != UserKey && AdminKey != UserIdKey by {
      assert UserKey[0] != AdminKey[0] && UserIdKey[0] != AdminKey[0];
    }
    AdminViews.GateStopsSignedOut(st, req, route, verify, rev);
  }

  /** Likewise an administrator sign-in opens no member page. */
  lemma AdminSessionOpensNoMemberPage(st: State, req: Request, route: HomeViews.Route, verify: Verifier, rev: Revision)
    requires Valid(st.db) && HomeViews.Gated(route)
    requires st.session.Keys <= {AdminKey}
    ensures Serve(st, req, ToHome(route), verify, rev)
              == Step(st, if Accepts(HomeViews.MethodsOf(route), req.verb) then Redirect(HomeLogin(Some(req.url))) else MethodNotAllowed)
  {
    assert AdminKey != UserKey by {
      assert UserKey[0] != AdminKey[0];
    }
    HomeViews.GateStopsSignedOut(st, req, route, verify, rev);
  }

  /** No request changes which role an administrator has: the member side
      never writes the administrator or role tables, and the admin side
      writes only tags. */
  lemma ServeKeepsRoles(st: State, req: Request, route: Route, verify: Verifier, rev: Revision, adminId: nat)
    requires Valid(st.db) && adminId in st.db.admins
    ensures var db' := Serve(st, req, route, verify, rev).state.db;
            adminId in db'.admins && RoleOf(db', adminId) == RoleOf(st.db, adminId)
  {
    var db' := Serve(st, req, route, verify, rev).state.db;
    assert db'.admins == st.db.admins && db'.roles == st.db.roles;
  }
}

=== FILE: text.dfy ===
/** Option values and the string handling the views rely on: Python's
    `str.strip()` and the WTForms `DataRequired` test built on it. */
module Options {

  /** A value that may be absent, as `None` in Python. */
  datatype Option<+T> = None | Some(value: T)
}

module Text {

  /** The characters for which Python's `str.isspace()` holds: the ASCII
      controls TAB..CR and FS..US, the space, NEL, NBSP and the Unicode
      space separators. These are what `str.strip()` removes. */
  predicate IsSpace(c: char)
  {
    || ('\t' <= c <= '\r')
    || ('\U{1C}' <= c <= ' ')
    || c == '\U{85}' || c == '\U{A0}' || c == '\U{1680}'
    || ('\U{2000}' <= c <= '\U{200A}')
    || c == '\U{2028}' || c == '\U{2029}' || c == '\U{202F}'
    || c == '\U{205F}' || c == '\U{3000}'
  }

  predicate AllSpace(s: string)
  {
    forall i :: 0 <= i < |s| ==> IsSpace(s[i])
  }

  /** No whitespace at either end (the empty string counts as trimmed). */
  predicate Trimmed(s: string)
  {
    s == [] || (!IsSpace(s[0]) && !IsSpace(s[|s| - 1]))
  }

  /** The length of the longest all-whitespace prefix. */
  function LeadingSpace(s: string): (n: nat)
    ensures n <= |s|
    ensures forall i :: 0 <= i < n ==> IsSpace(s[i])
    ensures n == |s| || !IsSpace(s[n])
  {
    if s != [] && IsSpace(s[0]) then
      var n := 1 + LeadingSpace(s[1..]);
      assert forall i :: 1 <= i < |s| ==> s[i] == s[1..][i - 1];
      n
    else
      0
  }

  /** The length of the longest all-whitespace suffix. */
  function TrailingSpace(s: string): (n: nat)
    ensures n <= |s|
    ensures forall i :: |s| - n <= i < |s| ==> IsSpace(s[i])
    ensures n == |s| || !IsSpace(s[|s| - n - 1])
  {
    if s != [] && IsSpace(s[|s| - 1]) then
      var n := 1 + TrailingSpace(s[..|s| - 1]);
      assert forall i :: 0 <= i < |s| - 1 ==> s[i] == s[..|s| - 1][i];
      n
    else
      0
  }

  /** Python's `s.strip()`: no whitespace is left at either end, and
      nothing is left at all exactly when `s` is only whitespace. Which
      characters survive is pinned down by `StripOfPadded`. */
  function Strip(s: string): (r: string)
    ensures Trimmed(r) && |r| <= |s|
    ensures r == [] <==> AllSpace(s)
  {
    var a := LeadingSpace(s);
    var t := s[a..];
    var r := t[..|t| - TrailingSpace(t)];
    assert r != [] ==> r[0] == s[a] && r[|r| - 1] == t[|t| - TrailingSpace(t) - 1];
    r
  }

  /** The WTForms `DataRequired` test on a text field: the value is not
      empty and not only whitespace. */
  predicate Present(s: string)
  {
    Strip(s) != []
  }

  /** Stripping is characterised by its decomposition: whatever whitespace
      pads a trimmed core on either side, `Strip` returns exactly that core. */
  lemma StripOfPadded(a: string, m: string, b: string)
    requires AllSpace(a) && AllSpace(b) && Trimmed(m)
    ensures Strip(a + m + b) == m
  {
    var s := a + m + b;
    if m == [] {
      assert forall i :: 0 <= i < |s| ==> IsSpace(s[i]) by {
        forall i | 0 <= i < |s|
          ensures IsSpace(s[i])
        {
          if i < |a| {
            assert s[i] == a[i];
          } else {
            assert s[i] == b[i - |a|];
          }
        }
      }
    } else {
      assert s[|a|] == m[0];
      assert forall i :: 0 <= i < |a| ==> s[i] == a[i];
      var t := s[LeadingSpace(s)..];
      assert LeadingSpace(s) == |a|;
      assert t == m + b;
      assert t[|m| - 1] == m[|m| - 1];
      assert forall i :: |m| <= i < |t| ==> t[i] == b[i - |m|];
      assert TrailingSpace(t) == |b|;
      assert t[..|m|] == m;
    }
  }

  /** A value with no whitespace at its ends is its own strip. */
  lemma TrimmedIsFixedPoint(s: string)
    requires Trimmed(s)
    ensures Strip(s) == s
  {
    StripOfPadded([], s, []);
    assert [] + s + [] == s;
  }

  /** `strip()` is idempotent. */
  lemma StripIdempotent(s: string)
    ensures Strip(Strip(s)) == Strip(s)
  {
    TrimmedIsFixedPoint(Strip(s));
  }

  /** `DataRequired` accepts exactly the values holding some non-space character. */
  lemma PresentIffNonSpace(s: string)
    ensures Present(s) <==> exists i :: 0 <= i < |s| && !IsSpace(s[i])
  {
  }
}

=== FILE: web.dfy ===
/** What a request handler sees and produces: the client's Flask session, the
    request, and the response, as the admin and home blueprints use them. */
module Web {
  import opened Options
  import opened Text
  import opened Models

  /** A session value: login stores a name or an id; `Null` is Python `None`. */
  datatype Value = Null | Str(s: string) | Num(n: int)

  /** Flask's session is a per-client dictionary, shared by both blueprints.
      The administrator namespace is the key "admin"; the member namespace is
      "user" and "user_id". */
  type Session = map<string, Value>

  const AdminKey: string := "admin"
  const UserKey: string := "user"
  const UserIdKey: string := "user_id"

  /** The admin `user_login` test passes: "admin" is present and not None. */
  predicate AdminSignedIn(s: Session)
  {
    AdminKey in s && s[AdminKey] != Null
  }

  /** The home `user_login` test passes: "user" is present and not None. */
  predicate UserSignedIn(s: Session)
  {
    UserKey in s && s[UserKey] != Null
  }

  /** `session.pop(key, None)`: never fails, removes the key if present. */
  function Pop(s: Session, key: string): (r: Session)
    ensures key !in r
    ensures r.Keys == s.Keys - {key}
    ensures forall k :: k in r ==> r[k] == s[k]
  {
    s - {key}
  }

  /** Popping twice is popping once, and popping an absent key is a no-op. */
  lemma PopIdempotent(s: Session, key: string)
    ensures Pop(Pop(s, key), key) == Pop(s, key)
    ensures key !in s ==> Pop(s, key) == s
  {
  }

  /** HEAD runs the view exactly as GET does; only the response body is
      dropped. */
  datatype Method = Get | Head | Post

  /** A route's `methods=` list: the verbs Flask lets through to the view.
      A route declared without one accepts GET only, and Werkzeug adds HEAD
      to every rule that accepts GET. */
  datatype Methods = GetOnly | GetAndPost

  predicate Accepts(m: Methods, verb: Method)
  {
    m == GetAndPost || verb != Post
  }

  /** `url` is `request.url`; `next` is `request.args.get("next")`; `ip` is
      `request.remote_addr`; `now` is the clock reading that `add_time`
      defaults take. */
  datatype Request = Request(verb: Method, url: string, next: Option<string>, ip: string, now: int)

  /** Redirect targets (`url_for(...)`, or a resumed URL). */
  datatype Target =
    | AdminLogin(next: Option<string>)
    | AdminIndex
    | TagAddPage
    | TagListPage(page: nat)
    | TagEditPage(id: nat)
    | HomeLogin(next: Option<string>)
    | HomeIndex
    | UserPage
    | HomeLogout
    | Resume(url: string)

  /** Messages a form field can fail with. */
  datatype Field = Account | Password | OldPassword | Name | RePassword | Star
  datatype FieldError =
    | Required(field: Field)   // DataRequired
    | AccountMissing           // "账号不存在"
    | OldPasswordWrong         // "旧密码错误"
    | PasswordsDiffer          // "两次密码不一致"
    | NotAChoice               // SelectField pre-validation

  /** Templates a handler renders. */
  datatype Page =
    | AdminLoginPage(errors: map<Field, FieldError>)
    | AdminHomePage
    | TagAddForm
    | TagListing(page: nat)
    | TagEditForm(id: nat)
    | HomeIndexPage
    | HomeLoginPage
    | ProfilePage
    | PwdPage

  /** Why a submitted form was sent back with an error flash. */
  datatype Reason = PasswordWrong | UserUnknown | TagNameExists | NickTaken | EmailInUse | PhoneInUse

  /** Exceptions the handlers let escape (a 500 response). */
  datatype Fault =
    | MissingSessionKey   // KeyError on session[...]
    | NoneRecord          // attribute access on a `.first()` that found nothing
    | IntegrityError      // commit violated a database constraint

  datatype Outcome =
    | Redirect(to: Target)
    | Rejected(reason: Reason, back: Target)  // flash(..., "err") then redirect
    | NotFound
    | MethodNotAllowed                        // 405: the route does not accept the verb
    | Rendered(page: Page)
    | Failed(fault: Fault)

  /** Server tables plus the requesting client's session. */
  datatype State = State(db: Db, session: Session)

  datatype Step = Step(state: State, outcome: Outcome)

  /** `request.args.get("next") or url_for(fallback)`: a non-empty `next`
      wins, anything else (absent or empty) falls back. */
  function ResumeOr(next: Option<string>, fallback: Target): Target
  {
    if next.Some? && next.value != [] then Resume(next.value) else fallback
  }

  /** `db.session.commit()`: the new tables are stored and the response sent
      if they satisfy every constraint; otherwise the commit raises and
      nothing the request did is kept (the application runs with debug on,
      so the session is not saved either). */
  function Commit(st: State, db': Db, session': Session, outcome: Outcome): Step
  {
    if Valid(db') then Step(State(db', session'), outcome) else Step(st, Failed(IntegrityError))
  }

  /** How a handler decides that a submitted value "changed" before checking
      it against the table. The code compares the stored value with the
      STRIPPED submission; `AgainstSubmitted` compares it with the submission
      as it is counted and stored. */
  datatype Comparison = AgainstStripped | AgainstSubmitted

  /** Which reading of the handlers with findings a dispatcher runs: the
      code as written, or the corrected one. */
  datatype Revision = AsWritten | Corrected

  predicate Changed(cmp: Comparison, stored: string, submitted: string)
  {
    match cmp
    case AgainstStripped => stored != Strip(submitted)
    case AgainstSubmitted => stored != submitted
  }
}
